=== FILE: README.md ===
# Telegram group secretary bot — a Dafny model of its core

The bot records the text messages of a Telegram group, summarises a day or a
week of them through a chat-completion service, and flags messages that
mention watched keywords. This project models the parts of it that decide
something:

- **Chunker** (`chunker.dfy`, summarizer.py `chunk_messages`). Each message
  becomes the line `- @<sender>: <text>\n`. The lines are packed greedily, in
  order, into blocks of at most 8000 characters. A line longer than the budget
  forms a block of its own. A specification function (`Chunks`) is proved
  equal to the imperative loop (`ChunkMessages`). A declarative description
  (`IsChunking`: cut points, budget, and "closed only because the next line
  would not fit") is proved to be met by `Chunks` and to admit no other result.
- **Summariser** (`generation.dfy`, `summarizer.dfy`, `summarize_window`).
  - A chat-completion client is a `Generator` object. It logs every
    (system, user) request and answers the n-th one with `respond(n)`: a reply
    or a failure.
  - One attempt sends a map request per block, then one reduce request over
    the stripped, labelled partial summaries. The first failure ends the
    attempt.
  - The asynchronous client runs first; `None` stands for its construction
    failing. On any failure the blocking client reruns the whole attempt from
    the first block, and its failure reaches the caller.
  - The exact prompt strings and `SYSTEM_PROMPT` are part of the model. The
    pipeline is stated for any system prompt, and `SummarizeWindow` passes
    `SYSTEM_PROMPT`.
- **Keyword matcher** (`keywords.dfy`, `build_keyword_flags`). The watch-list
  is split on commas and stripped, and blank entries are dropped. An entry is
  flagged when it occurs in the text ignoring case, literally, with a `\b`
  word boundary on each side. Here `\b` at position p holds when the
  characters on its two sides differ in being word characters; the ends of
  the text count as non-word. Case folding and the word-character test are
  parameters.
- **Bot helpers** (`bot.dfy`, bot.py):
  - the `ALLOWED_CHAT_IDS` parse and `allow_chat`;
  - `/digest_time`, over a `Settings` object holding the stored digest times,
    with its `^\d{2}:\d{2}$` check;
  - the scheduled job: which chats are due, and the loop that summarises
    them in order, where a failing summary ends the whole run;
  - the `/search` and `/stats` reply lines: user label and 200-character
    snippet;
  - the `/export_hits` user column and day count.
- **Python built-ins** (`pystr.dfy`): `str.strip` (full `isspace` set),
  `split` on one character, `join`, `str(int)` and `int(str)` (whitespace,
  sign, digits with single underscores), with their round trips.

All files are verified together: `dafny verify *.dfy`.

## Model

| member | source | states |
|---|---|---|
| PyStr.IsSpace | summarizer.py:81 | the characters Python's `str.isspace` accepts, which `strip()` removes |
| PyStr.StripStart | summarizer.py:81 | the result is a suffix of the input; everything removed is whitespace; the result does not start with whitespace |
| PyStr.StripEnd | summarizer.py:81 | the result is a prefix of the input; everything removed is whitespace; the result does not end with whitespace |
| PyStr.Strip | summarizer.py:81 | `strip()` is the slice left after the leading and the trailing whitespace; neither end of it is whitespace |
| PyStr.StripIdentity | summarizer.py:81 | stripping leaves a string unchanged exactly when neither end is whitespace |
| PyStr.Split | summarizer.py:80 | `split(",")` gives at least one piece, and no piece contains the separator |
| PyStr.JoinSplit | summarizer.py:80 | joining the pieces of a split with the separator gives back the string |
| PyStr.SplitNoSeparator | bot.py:41 | a string without the separator splits into itself alone |
| PyStr.SplitAfterPiece | bot.py:41 | splitting `p + sep + t` gives `p` followed by the pieces of `t` |
| PyStr.JoinContains | summarizer.py:42 | every part of a join occurs in the joined string |
| PyStr.RemoveSpaces | bot.py:41 | `replace(" ", "")` leaves no space, is not longer than its input, and keeps exactly the input's other characters |
| PyStr.RemoveSpacesAppend | bot.py:41 | removing spaces from a concatenation removes them from each part, keeping the order |
| PyStr.RemoveSpacesChar | bot.py:41 | a space is removed and any other character is kept |
| PyStr.IsDigitRun | bot.py:41 | the digit part `int()` accepts: decimal digits, with single underscores only between two digits |
| PyStr.DigitsValue | bot.py:41 | the number a digit run denotes, underscores ignored; `DigitsValueOfNat` shows it reads `str(n)` back as n |
| PyStr.ParseStripped | bot.py:41 | `int()` after stripping: an optional sign and a digit run, negated for `-`; anything else is a failure |
| PyStr.ParseInt | bot.py:41 | `int(s)`: whitespace around an optional sign and a digit run is ignored; anything else is a failure. Its round trip is `IntToStringRoundTrip` |
| PyStr.DigitChar | summarizer.py:37 | a digit value renders as a decimal digit character |
| PyStr.NatToString | summarizer.py:37 | `str(n)` is a non-empty run of decimal digits with no leading zero unless n is 0 |
| PyStr.IntToString | summarizer.py:14 | `str(n)` is non-empty and made of digits and a minus sign only |
| PyStr.DigitsValueOfNat | bot.py:41 | the digits of `str(n)` denote n |
| PyStr.NatStringDigits | bot.py:41 | `str(n)` of a natural number is a digit run that denotes n |
| PyStr.ParseNatString | bot.py:41 | `int(str(n)) == n` for n at least 0 |
| PyStr.ParseNegativeString | bot.py:41 | `int(str(n)) == n` for negative n |
| PyStr.IntToStringRoundTrip | bot.py:41 | `int(str(n)) == n` for every integer n of the model, where numerals have no length limit |
| Chunker.Sender | summarizer.py:14 | `username or user_id` as rendered is never empty |
| Chunker.FormatLine | summarizer.py:14 | a message's line is longer than its text by the `- @`, sender, `: ` and newline framing |
| Chunker.Lines | summarizer.py:13-14 | one line per message, in message order, each the message's formatted line |
| Chunker.FormatLineAttributes | summarizer.py:14 | a transcript line reads back as exactly its message's sender and text |
| Chunker.Pack | summarizer.py:15-22 | the greedy step from a given current block; `PackIsChunking`, `PackFlatten` and `PackNoEmptyBlock` state what it produces |
| Chunker.Chunks | summarizer.py:11-23 | the blocks of a whole transcript; `ChunksAreChunking`, `ChunkingUnique` and `ChunksFlatten` state what they are |
| Chunker.ChunkMessages | summarizer.py:10-23 | the loop returns exactly the greedy chunking `Chunks` of the message lines |
| Chunker.PackIsChunking | summarizer.py:13-22 | the greedy packing from any state is a chunking of the remaining lines |
| Chunker.ChunksAreChunking | summarizer.py:13-22 | the blocks cut the transcript into runs of whole lines; a multi-line block fits the budget; a block is closed only when the next line would not fit |
| Chunker.ChunkingUnique | summarizer.py:15-20 | two chunkings of the same lines under the same budget are the same blocks, so the greedy rule determines the result |
| Chunker.PackFlatten | summarizer.py:13-22 | packing loses and duplicates nothing: the blocks concatenate to the current block followed by the remaining lines |
| Chunker.ChunksFlatten | summarizer.py:13-22 | the blocks concatenate, in order, to the whole transcript |
| Chunker.PackNoEmptyBlock | summarizer.py:16-17 | packing never emits an empty block |
| Chunker.ChunksNoEmptyBlock | summarizer.py:21-22 | no block is empty |
| Chunker.ChunksEmpty | summarizer.py:11-23 | there are no blocks exactly when there are no messages |
| Chunker.ChunksWithinBudget | summarizer.py:15-20 | every block is within the budget or is a single transcript line that is longer than the budget by itself |
| Chunker.PackFits | summarizer.py:15-20 | lines that fit beside the current block are all appended to it |
| Chunker.ChunksSingleBlock | summarizer.py:15-22 | a transcript that fits in the budget is exactly one block |
| Chunker.LinesNonEmpty | summarizer.py:14 | no transcript line is empty |
| Chunker.FlattenAppend | summarizer.py:20 | concatenation distributes over appending lists of lines |
| Generation.Generator.constructor | summarizer.py:28 | a new client has sent no request |
| Generation.Generator.Generate | summarizer.py:32-40 | a completion call logs its (system, user) request and returns the outcome for its position |
| Summarizer.MapPrompt | summarizer.py:37 | the map prompt for block i of N, `Суммируй блок {i}/{N} {label}:\n`, ends with the block itself |
| Summarizer.ReducePrompt | summarizer.py:42-48 | the reduce prompt, `Объедини кратко все блоки {label} в единый дайджест с заголовками:\n` and the labelled summaries joined by a blank line; `ReducePromptLabelsEach` states that it carries every summary |
| Summarizer.Labelled | summarizer.py:42 | the i-th part is `Блок {i+1}: ` followed by the i-th summary |
| Summarizer.MapRequests | summarizer.py:31-38 | one request per block, in order; request i has the system prompt (`SYSTEM_PROMPT` in `SummarizeWindow`) and `Суммируй блок {i}/{N} {label}:\n` followed by block i |
| Summarizer.Outcomes | summarizer.py:32-40 | the outcomes the client gives to the next requests, in order |
| Summarizer.FirstFailure | summarizer.py:31-40 | every outcome before the returned position succeeded, and the one at it failed |
| Summarizer.Summaries | summarizer.py:40 | the partial summaries are the stripped replies, in block order |
| Summarizer.AttemptRequests | summarizer.py:29-50 | an attempt sends the map requests in order and stops after the first failure; only when all succeed does it send the reduce request over the stripped summaries |
| Summarizer.AttemptResult | summarizer.py:40-51 | an attempt succeeds exactly when every request does, returning the stripped reduce reply; otherwise it fails with the failure of the first request that failed |
| Summarizer.MapBlocks | summarizer.py:31-40 | the map loop succeeds exactly when no map request fails, returning the stripped replies in block order after sending every map request; otherwise it returns the first failure, having sent the map requests up to and including the failing one |
| Summarizer.ReduceSummaries | summarizer.py:42-51 | the reduce step sends one request carrying the labelled summaries and returns its stripped reply, or its failure |
| Summarizer.Attempt | summarizer.py:29-51 | the client's request log grows by exactly the attempt's requests, and the result is the attempt's result |
| Summarizer.SummarizeBlocks | summarizer.py:27-74 | for given blocks and system prompt: the asynchronous client, when it exists, runs one attempt. If it succeeds, its digest is returned and the blocking client is untouched. Otherwise the blocking client runs the whole attempt from the first block, and its outcome is returned |
| Summarizer.SummarizeWindow | summarizer.py:25-74 | every request carries `SYSTEM_PROMPT` (lines 4-8, the constant `SystemPrompt`). The asynchronous client runs one attempt over the chunked messages. If it succeeds, its digest is returned and the blocking client is untouched. Otherwise the blocking client runs the whole attempt from the first block, and its outcome, failure included, is returned |
| Summarizer.AttemptFailed | summarizer.py:31-40 | when a map request fails, the attempt has sent the map requests up to and including it and returns that failure |
| Summarizer.CompleteResult | summarizer.py:40-51 | when every map request succeeds, the attempt's result is the stripped reduce reply, or the reduce failure |
| Summarizer.FirstFailureIs | summarizer.py:31-40 | the first failure is characterised by the outcomes before and at it |
| Summarizer.ReducePromptLabelsEach | summarizer.py:42-48 | the reduce prompt contains `Блок {i}: ` followed by the i-th stripped summary, for every block |
| Summarizer.TwoBlockRequests | summarizer.py:31-48 | with two blocks and no failure, the requests are `блок 1/2`, `блок 2/2` and a reduce prompt listing `Блок 1` and `Блок 2` separated by a blank line |
| Summarizer.TwoSummaryReducePrompt | summarizer.py:42-48 | the exact reduce prompt for two summaries |
| Summarizer.AllAnsweredResult | summarizer.py:43-51 | when every request is answered, all of them are sent and the stripped reduce reply is returned |
| Summarizer.EmptyWindowRequest | summarizer.py:42-48 | with no messages there are no blocks, yet one reduce request is still sent, over an empty list |
| Keywords.Boundary | summarizer.py:84 | `\b` at a position: the characters on its two sides differ in being word characters, and the ends of the text count as non-word |
| Keywords.MatchAt | summarizer.py:84 | the keyword matches at a position ignoring case, with a word boundary before and after it |
| Keywords.Occurs | summarizer.py:84 | the keyword matches at some position; this is the independent definition `SearchFrom` and `Search` are proved against |
| Keywords.SearchFrom | summarizer.py:84 | the scan finds a match at or after a position exactly when one exists |
| Keywords.Search | summarizer.py:84 | `re.search` succeeds exactly when the keyword occurs, ignoring case, between two word boundaries |
| Keywords.Entries | summarizer.py:80-83 | at most one entry per piece, and no entry is empty |
| Keywords.Flagged | summarizer.py:79-86 | never more flags than keywords |
| Keywords.BuildKeywordFlags | summarizer.py:76-86 | the loop returns the watch-list entries that occur in the text, in list order |
| Keywords.EntriesSkip | summarizer.py:81-83 | a piece that strips to nothing adds no entry |
| Keywords.EntriesKeep | summarizer.py:81-83 | a piece that is not blank adds its stripped text as the next entry |
| Keywords.FlaggedHit | summarizer.py:84-85 | a keyword that occurs is flagged after the flags of the keywords before it |
| Keywords.FlaggedMiss | summarizer.py:84 | a keyword that does not occur adds no flag |
| Keywords.FlaggedMembers | summarizer.py:84-85 | a keyword is flagged exactly when it is listed and occurs in the text |
| Keywords.AllOccurFlagged | summarizer.py:80-85 | when every entry occurs, the flags are the whole list, in order, repetitions kept |
| Keywords.NoneOccurNothingFlagged | summarizer.py:80-86 | when no entry occurs, nothing is flagged |
| Keywords.FlaggedAppend | summarizer.py:80-85 | the flags of a concatenated list are the flags of each part, in turn |
| Keywords.EntriesMembers | summarizer.py:80-83 | a string is an entry exactly when it is non-blank and is the stripped form of some piece |
| Keywords.WatchList | summarizer.py:77-83 | the keywords a watch-list names, none of them empty; an empty list names none |
| Keywords.WatchListRoundTrip | summarizer.py:80-83 | a list written as `",".join` of clean keywords reads back as that list |
| Keywords.EntriesOfClean | summarizer.py:81-83 | clean pieces are kept as they are |
| Keywords.BlankWatchList | summarizer.py:77-83 | a list of blank pieces names nothing, so the empty-string guard changes no result |
| Keywords.EntriesPair | summarizer.py:80-83 | two non-blank pieces give their two stripped entries |
| Keywords.WatchListSpaced | summarizer.py:80-81 | in `"a, b"` the space after the comma is stripped away |
| Keywords.SpacedSplit | summarizer.py:80 | `"a, b"` splits into `a` and ` b` |
| Keywords.StripSpaceBefore | summarizer.py:81 | a leading space does not survive stripping |
| Keywords.FirstCharAbsent | summarizer.py:84 | a keyword whose first character never appears in the text, up to case, does not occur |
| Keywords.MismatchAt | summarizer.py:84 | there is no match at a position where one character differs, up to case |
| Keywords.ConcertOccurs | summarizer.py:84 | "concert" occurs in "Bugun CONCERT bor" ignoring case |
| Keywords.VenueAbsent | summarizer.py:84 | "venue" does not occur in "Bugun CONCERT bor" |
| Keywords.ConcertFlagged | summarizer.py:80-86 | of "concert" and "venue", only "concert" is flagged for "Bugun CONCERT bor" |
| Keywords.ConcertmasterNotFlagged | summarizer.py:84 | "concert" is not a whole word in "concertmaster here" |
| Keywords.HashTagAfterSpace | summarizer.py:84 | "#tag" is not found in "see #tag": `\b` before "#" needs a word character on its left |
| Keywords.HashTagAfterWord | summarizer.py:84 | "#tag" is found in "x#tag", where "x" is a word character |
| Bot.NonEmptyPieces | bot.py:41 | `if cid` keeps exactly the non-empty pieces: every kept piece is non-empty, and a string is kept exactly when it is a non-empty piece |
| Bot.NonEmptyPiecesAppend | bot.py:41 | the filter keeps order: the kept pieces of a concatenation are those of each part, in turn |
| Bot.NonEmptyPiecesOne | bot.py:41 | a single piece is kept exactly when it is non-empty |
| Bot.AllowPieces | bot.py:41 | the pieces the allow-list is parsed from are non-empty and contain no comma |
| Bot.Collect | bot.py:41 | the parse succeeds exactly when every piece parses, and then gives their values in order |
| Bot.ParseEach | bot.py:41 | `int(p)` for each piece, in order |
| Bot.ParseAllowList | bot.py:41 | the allow-list parse succeeds exactly when every non-empty piece is an integer, and then lists those integers in order |
| Bot.AllowChat | bot.py:256-259 | a chat is allowed when the allow-list is empty or names it; `AllowedByEnvironment` states this for the list read from the environment |
| Bot.AllowedByEnvironment | bot.py:256-259 | a chat is allowed exactly when the list is empty or one of its pieces reads as the chat's id |
| Bot.NonEmptyPiecesOfNonEmpty | bot.py:41 | non-empty pieces are all kept |
| Bot.RemoveSpacesNone | bot.py:41 | removing spaces leaves a space-free string alone |
| Bot.AllowListRoundTrip | bot.py:41 | a comma-separated list of ids parses back to exactly those ids |
| Bot.IdPieces | bot.py:41 | the pieces of a written id list are the ids' decimal forms |
| Bot.IdParses | bot.py:41 | each written id parses back to itself |
| Bot.CollectValues | bot.py:41 | parses that all succeed collect to their values |
| Bot.EmptyAllowListAllowsAll | bot.py:256-258 | an unset allow-list is empty and allows every chat |
| Bot.IsDigestTime | bot.py:144 | `re.match(r"^\d{2}:\d{2}$")`: two digits, a colon, two digits, and optionally a final newline; its accepted strings are described by `DigestTimeShape` and `DigestTimeExamples` |
| Bot.DigestTimeOf | bot.py:266 | as at line 139 too, a chat's digest time is its stored time when that is not empty; any other value is the default |
| Bot.DigestTimeShape | bot.py:144 | the five-character accepted times are exactly two two-digit numbers around a colon, without a range check |
| Bot.DigestTimeExamples | bot.py:144 | "99:99", "21:30" and "21:30" with a final newline are accepted; "9:30", "21:300" and "21-30" are not |
| Bot.IsDue | bot.py:266-272 | a chat is due when its stored time, or the default, equals the current time and it has a message since midnight |
| Bot.DueChats | bot.py:264-273 | never more chats due than chats |
| Bot.DueChatsMembers | bot.py:264-273 | a chat is due exactly when it is listed, its stored time or the default equals the current time, and it has messages today |
| Bot.CurrentTimeText | bot.py:140-141 | the reply without an argument: the current digest time and an example command |
| Bot.UpdatedText | bot.py:148 | the reply after an accepted time, naming that time |
| Bot.Settings.constructor | bot.py:139 | no chat starts with a stored digest time |
| Bot.Settings.DigestTimeCommand | bot.py:135-148 | outside the allow-list nothing happens. Without an argument the reply shows the current time. A badly formatted time is refused and nothing is stored. An accepted time is stored for that chat only. Stored times stay well-formed |
| Bot.JobRun | bot.py:264-278 | the reference definition of the job's loop: chats that are not due are skipped, a due chat whose summary fails ends the run with that failure, and otherwise its digest comes first; `JobRunServesDueChats` states what it serves |
| Bot.Settings.DigestJob | bot.py:261-278 | the job's loop produces exactly the report `JobRun` gives for the stored times |
| Bot.JobStep | bot.py:265-274 | a chat that is not due is skipped; a due chat whose summary fails ends the run; otherwise its digest comes before the rest of the run |
| Bot.JobRunServesDueChats | bot.py:264-278 | the job serves the due chats in order, each with its own digest, up to the first whose summary fails. That failure ends the run, so every later due chat gets nothing. Without a failure, every due chat gets its digest |
| Bot.ServesCons | bot.py:274-276 | a due chat whose digest succeeds is served before the chats after it |
| Bot.ServesFailure | bot.py:274 | a failing summary ends the run with no digest after it |
| Bot.DueChatsFront | bot.py:265-273 | the due chats of a list are its first chat, when due, followed by the due chats of the rest |
| Bot.DueChatsAppend | bot.py:265-273 | the due chats of a concatenation are those of each part, in turn |
| Bot.FailureStopsLaterChats | bot.py:274-278 | of two due chats, when the first one's summary fails, the second gets no digest |
| Bot.StoredTimeWins | bot.py:266 | in a valid settings table (every stored time passed the format check) a stored time is never empty, so the default applies only to chats without one |
| Bot.UpdateTakesEffect | bot.py:147 | after an accepted `/digest_time t` the chat's time is t, and every other chat's time is unchanged |
| Bot.Snippet | bot.py:93 | a text of at most 200 characters is shown whole; a longer one as its first 200 characters and `…` |
| Bot.SnippetBounded | bot.py:93 | a snippet has at most 201 characters and starts with the text |
| Bot.UserLabel | bot.py:92 | as at line 108 too, the user as `/search` and `/stats` show it is never empty, and starts with `@` exactly when there is a non-empty username |
| Bot.LabelAgainstTranscript | bot.py:92 | the search label is `@` and the transcript's sender when there is a username, and the bare sender otherwise |
| Bot.ExportLabel | bot.py:196 | the export user column is empty exactly when there is no username and the id is missing or zero |
| Bot.SearchLine | bot.py:94 | a `/search` line, `• {time} — {user}: {snippet}`; `SearchLineEndsWithSnippet` states that it ends with the snippet |
| Bot.SearchLines | bot.py:89-94 | one reply line per result, in order, each `• {time} — {user}: {snippet}` |
| Bot.SearchLineEndsWithSnippet | bot.py:94 | every search line ends with its message's snippet |
| Bot.PosterLine | bot.py:109 | a `/stats` line, `• {user} — {count} ta`, which `StatsLines` puts after the heading |
| Bot.StatsLines | bot.py:103-109 | a zero count gives the empty-statistics text; otherwise the total, the heading, then one line per top poster, in order |
| Bot.ExportDays | bot.py:183-185 | the export window is 7 days without arguments, and otherwise either the integer value of the first argument or 7 |
| Bot.ExportDaysRoundTrip | bot.py:183 | an integer written in decimal as the first argument, zero or negative included, is the value of `days`, up to the digit limit admitted under "## Left out" |
| Bot.ExportDaysDefault | bot.py:183-185 | without arguments or with a non-integer first argument the window is 7 days |

## Left out

- storage.py (SQLite schema, full-text search, migrations, queries). It is not part of this model. The stored digest times are a map. Message queries, search results and top posters are inputs.
- `/set_keywords` can create a settings row holding the column default `'21:00'` as its digest time. That write, like every storage write other than `/digest_time`'s, is not part of this model.
- async/await, the APScheduler minute trigger, polling and event-loop setup: concurrency and host plumbing.
- Telegram replies, document uploads and Markdown rendering are I/O. Replies are returned as strings or lines, and sends are left out.
- Bot.Settings.DigestJob: the outcome of `summarize_window` for each chat is the parameter `digestOf`; `Summarizer.SummarizeWindow` describes how that outcome arises from the two clients. Sending a digest is I/O, and its failure is caught and logged (bot.py:275-278), so every digest produced counts as sent.
- Clocks and time formatting (`datetime.now`, `utcnow`, `strftime`): the current `HH:MM`, the messages since midnight and the timestamp renderer are parameters.
- The CSV writing, UTF-8-with-BOM encoding and file name of `/export_hits`: library serialisation.
- Environment loading, logging and the `KEYWORD_REPLY` flag; the other handlers (`/start`, `/chatid`, `/digest_today`, `/digest_week`, `/keywords`, `/set_keywords`, `/hits_today`) and the persisting of keyword hits in `on_message`, which only pass values between storage, the modelled functions and Telegram.
- The model name and `temperature=0.2` of each completion call are pass-through constants and are not part of a request.
- Generation.Generator.Generate: the outcome of a request depends on its position in the client's log, not on its prompt. The prompts an attempt sends are determined by the blocks and earlier outcomes, and `respond` is arbitrary, so every behaviour of the service is still covered.
- Keywords.Search: `\w` and case-insensitive comparison are parameters (`isWord`, `fold`), not Python's Unicode tables.
- Bot.IsDigestTime: `\d` is read as the ASCII digits 0-9. Python also accepts other Unicode decimal digits there.
- Bot.DigestTimeShape: states the shape over the ASCII digits only, as `IsDigestTime` reads `\d`.
- PyStr.ParseInt: `int()` is read as accepting ASCII digits only. Python also accepts other Unicode decimal digits. Python 3.10.7 and later also refuse, with `ValueError`, a string of more than 4300 digits; that limit is not modelled.
- PyStr.IntToString: `str(n)` of a number with more than 4300 digits raises `ValueError` in Python 3.10.7 and later; here it is always a numeral.
- PyStr.IntToStringRoundTrip: holds for every integer because neither direction models the 4300-digit limit; in Python it holds for numbers of at most 4300 digits.
- PyStr.ParseStripped: the sign-and-digits grammar of `int()` over ASCII digits only, and without the 4300-digit limit, as for `ParseInt`.
- Bot.ParseAllowList: built on `ParseInt`, so an id written with non-ASCII digits is rejected here and accepted by Python. An id of more than 4300 digits is accepted here, while Python raises `ValueError` at start-up.
- Bot.ExportDays: built on `ParseInt`, so a non-ASCII digit argument gives 7 here, where Python reads the number. An argument of more than 4300 digits gives its value here, where Python's `ValueError` is caught at bot.py:184-185 and gives 7.
- Bot.ExportDaysRoundTrip: holds here for numerals of any length, while Python reads at most 4300 digits (see `Bot.ExportDays`). It states the value of `days` only. The handler then computes `datetime.utcnow() - timedelta(days=days)` outside the `try` (bot.py:186). A window too large for that date arithmetic, such as `/export_hits 1000000`, raises `OverflowError`, and the handler fails without exporting. Date arithmetic is not part of this model.

=== FILE: bot.dfy ===
/**
 * The decision helpers of bot.py: the chat allow-list, the `/digest_time`
 * command over the stored digest times, the scheduled digest's choice of
 * chats, the lines of the `/search` and `/stats` replies, and the day count of
 * `/export_hits`. Storage is a map of stored digest times plus function
 * parameters standing for its queries; clocks and time formatting are inputs.
 */
module Bot {
  import opened Results
  import opened PyStr
  import opened Chunker
  import opened Seqs

  // ---------------------------------------------------------------- the allow-list

  /** The non-empty pieces, in order (`... if cid`). */
  function NonEmptyPieces(pieces: seq<string>): (r: seq<string>)
    ensures |r| <= |pieces|
    ensures forall i :: 0 <= i < |r| ==> r[i] != ""
    ensures forall p :: p in r <==> p in pieces && p != ""
  {
    if pieces == [] then []
    else
      var init := NonEmptyPieces(pieces[..|pieces| - 1]);
      LastSplit(pieces);
      if pieces[|pieces| - 1] == "" then init else init + [pieces[|pieces| - 1]]
  }

  /** Dropping empty pieces works list by list: every non-empty piece is kept, in order. */
  lemma {:induction false} NonEmptyPiecesAppend(a: seq<string>, b: seq<string>)
    ensures NonEmptyPieces(a + b) == NonEmptyPieces(a) + NonEmptyPieces(b)
    decreases |b|
  {
    if b == [] {
      assert a + b == a;
    } else {
      var init, last := b[..|b| - 1], b[|b| - 1];
      NonEmptyPiecesAppend(a, init);
      LastSplit(b);
      AppendAssoc(a, init, [last]);
      DropLast(a + init, last);
      DropLast(init, last);
      if last != "" {
        AppendAssoc(NonEmptyPieces(a), NonEmptyPieces(init), [last]);
      }
    }
  }

  /** An empty piece is dropped; any other piece stays. */
  lemma NonEmptyPiecesOne(p: string)
    ensures p == "" ==> NonEmptyPieces([p]) == []
    ensures p != "" ==> NonEmptyPieces([p]) == [p]
  {
    assert [p][..0] == [];
  }

  /** The pieces of `ALLOWED_CHAT_IDS`: spaces removed, split on commas, empty pieces dropped. */
  function AllowPieces(env: string): (r: seq<string>)
    ensures forall p :: p in r ==> p != "" && ',' !in p
  {
    NonEmptyPieces(Split(RemoveSpaces(env), ','))
  }

  /** The values of all the parses, or `None` as soon as one failed. */
  function Collect(parsed: seq<Option<int>>): (r: Option<seq<int>>)
    ensures r.Some? <==> forall i :: 0 <= i < |parsed| ==> parsed[i].Some?
    ensures r.Some? ==> |r.value| == |parsed| && forall i :: 0 <= i < |parsed| ==> parsed[i] == Some(r.value[i])
  {
    if parsed == [] then Some([])
    else
      match Collect(parsed[..|parsed| - 1])
      case None => None
      case Some(init) =>
        match parsed[|parsed| - 1]
        case None => None
        case Some(id) => Some(init + [id])
  }

  /** `int(p)` for every piece. */
  function ParseEach(pieces: seq<string>): (r: seq<Option<int>>)
    ensures |r| == |pieces| && forall i :: 0 <= i < |pieces| ==> r[i] == ParseInt(pieces[i])
  {
    seq(|pieces|, i requires 0 <= i < |pieces| => ParseInt(pieces[i]))
  }

  /**
   * `ALLOWED_CHAT_IDS` (bot.py:41) from the environment value (`""` when the
   * variable is unset); a piece that is not an integer raises at start-up.
   */
  function ParseAllowList(env: string): (r: Result<seq<int>>)
    ensures r.Ok? <==> forall i :: 0 <= i < |AllowPieces(env)| ==> ParseInt(AllowPieces(env)[i]).Some?
    ensures r.Ok? ==> |r.value| == |AllowPieces(env)|
    ensures r.Ok? ==> forall i :: 0 <= i < |r.value| ==> ParseInt(AllowPieces(env)[i]) == Some(r.value[i])
  {
    match Collect(ParseEach(AllowPieces(env)))
    case None => Err("invalid literal for int() with base 10")
    case Some(ids) => Ok(ids)
  }

  /** `allow_chat(chat_id)`. */
  predicate AllowChat(allowed: seq<int>, chat: int) {
    allowed == [] || chat in allowed
  }

  /**
   * With the allow-list read from `env`, a chat is allowed exactly when the
   * list names no chat at all or one of its pieces reads as that chat's id.
   */
  lemma AllowedByEnvironment(env: string, ids: seq<int>, chat: int)
    requires ParseAllowList(env) == Ok(ids)
    ensures AllowChat(ids, chat) <==>
              AllowPieces(env) == [] || exists i :: 0 <= i < |AllowPieces(env)| && ParseInt(AllowPieces(env)[i]) == Some(chat)
  {
    var pieces := AllowPieces(env);
    if chat in ids {
      var i :| 0 <= i < |ids| && ids[i] == chat;
      assert ParseInt(pieces[i]) == Some(chat);
    }
  }

  lemma {:induction false} NonEmptyPiecesOfNonEmpty(pieces: seq<string>)
    requires forall i :: 0 <= i < |pieces| ==> pieces[i] != ""
    ensures NonEmptyPieces(pieces) == pieces
  {
    if pieces != [] {
      NonEmptyPiecesOfNonEmpty(pieces[..|pieces| - 1]);
      assert pieces[..|pieces| - 1] + [pieces[|pieces| - 1]] == pieces;
    }
  }

  lemma {:induction false} RemoveSpacesNone(s: string)
    requires ' ' !in s
    ensures RemoveSpaces(s) == s
  {
    if s != [] {
      RemoveSpacesNone(s[1..]);
      assert [s[0]] + s[1..] == s;
    }
  }

  lemma {:induction false} JoinKeepsOut(parts: seq<string>, sep: char, c: char)
    requires c != sep
    requires forall i :: 0 <= i < |parts| ==> c !in parts[i]
    ensures c !in Join([sep], parts)
  {
    if |parts| > 1 {
      JoinKeepsOut(parts[1..], sep, c);
    }
  }

  /** The decimal forms of `ids`, as they would be written in the environment. */
  function IdStrings(ids: seq<int>): (r: seq<string>)
    ensures |r| == |ids|
    ensures forall i :: 0 <= i < |ids| ==> r[i] == IntToString(ids[i])
  {
    seq(|ids|, i requires 0 <= i < |ids| => IntToString(ids[i]))
  }

  /** Writing the chat ids comma-separated gives back exactly those ids, in order. */
  lemma AllowListRoundTrip(ids: seq<int>)
    ensures ParseAllowList(Join([','], IdStrings(ids))) == Ok(ids)
  {
    IdPieces(ids);
    IdParses(ids);
  }

  lemma IdPieces(ids: seq<int>)
    ensures AllowPieces(Join([','], IdStrings(ids))) == IdStrings(ids)
  {
    var parts := IdStrings(ids);
    var env := Join([','], parts);
    forall i | 0 <= i < |parts|
      ensures ' ' !in parts[i] && ',' !in parts[i] && parts[i] != ""
    {
      assert forall j :: 0 <= j < |parts[i]| ==> IsDigit(parts[i][j]) || parts[i][j] == '-';
    }
    JoinKeepsOut(parts, ',', ' ');
    RemoveSpacesNone(env);
    if ids == [] {
      assert NonEmptyPieces([""]) == [];
    } else {
      SplitJoin(parts, ',');
      NonEmptyPiecesOfNonEmpty(parts);
    }
  }

  lemma IdParses(ids: seq<int>)
    ensures Collect(ParseEach(IdStrings(ids))) == Some(ids)
  {
    var parsed := ParseEach(IdStrings(ids));
    forall i | 0 <= i < |ids|
      ensures parsed[i] == Some(ids[i])
    {
      IntToStringRoundTrip(ids[i]);
    }
    CollectValues(parsed, ids);
  }

  lemma CollectValues(parsed: seq<Option<int>>, values: seq<int>)
    requires |parsed| == |values| && forall i :: 0 <= i < |parsed| ==> parsed[i] == Some(values[i])
    ensures Collect(parsed) == Some(values)
  {
    var r := Collect(parsed);
    assert r.Some?;
    assert forall i :: 0 <= i < |values| ==> r.value[i] == values[i];
    assert r.value == values;
  }

  /** An unset or blank `ALLOWED_CHAT_IDS` allows every chat. */
  lemma EmptyAllowListAllowsAll(chat: int)
    ensures ParseAllowList("") == Ok([])
    ensures AllowChat([], chat)
  {
    assert Split("", ',') == [""];
    assert [""][..0] == [];
  }

  // ---------------------------------------------------------------- digest times

  /**
   * `re.match(r"^\d{2}:\d{2}$", s)`: two digits, a colon, two digits, and then
   * the end of the string or a final newline, which `$` also accepts.
   */
  predicate IsDigestTime(s: string) {
    && (|s| == 5 || (|s| == 6 && s[5] == '\n'))
    && IsDigit(s[0]) && IsDigit(s[1]) && s[2] == ':' && IsDigit(s[3]) && IsDigit(s[4])
  }

  /** The time `h`:`m` written `HH:MM`, each part as two digits. */
  function Clock(h: nat, m: nat): string
    requires h < 100 && m < 100
  {
    [DigitChar(h / 10), DigitChar(h % 10), ':', DigitChar(m / 10), DigitChar(m % 10)]
  }

  function DigitValue(c: char): nat
    requires IsDigit(c)
  {
    c as int - '0' as int
  }

  /**
   * The five-character times accepted are exactly the two-digit pairs, with
   * no range check on either: "99:99" is one of them.
   */
  lemma DigestTimeShape(s: string)
    ensures (IsDigestTime(s) && |s| == 5) <==> exists h: nat, m: nat :: h < 100 && m < 100 && s == Clock(h, m)
  {
    if IsDigestTime(s) && |s| == 5 {
      var h := 10 * DigitValue(s[0]) + DigitValue(s[1]);
      var m := 10 * DigitValue(s[3]) + DigitValue(s[4]);
      assert s == Clock(h, m);
    }
  }

  lemma DigestTimeExamples()
    ensures IsDigestTime("99:99") && IsDigestTime("21:30") && IsDigestTime("21:30\n")
    ensures !IsDigestTime("9:30") && !IsDigestTime("21:300") && !IsDigestTime("21-30")
  {
  }

  /** `storage.get_digest_time(chat) or DEFAULT_DIGEST_TIME`. */
  function DigestTimeOf(times: map<int, string>, default: string, chat: int): (r: string)
    ensures chat in times && times[chat] != "" ==> r == times[chat]
    ensures r != default ==> chat in times && r == times[chat]
  {
    if chat in times && times[chat] != "" then times[chat] else default
  }

  /** The texts `/digest_time` replies with. */
  function CurrentTimeText(time: string): string {
    "Hozirgi kunlik digest vaqti: " + time + "\nNamuna: /digest_time 21:30"
  }

  const BadFormatText: string := "Iltimos HH:MM formatida kiriting, masalan: 21:30"

  function UpdatedText(time: string): string {
    "Kunlik digest vaqti yangilandi: " + time
  }

  /** A chat is due when its digest time is `now` and it has a message since midnight (bot.py:265-272). */
  predicate IsDue(times: map<int, string>, default: string, now: string, messagesToday: int -> seq<Message>, c: int) {
    DigestTimeOf(times, default, c) == now && messagesToday(c) != []
  }

  /**
   * The scheduled job's choice (bot.py:264-273): of `chats`, in order, those
   * whose digest time is `now` and that have a message since midnight.
   */
  function DueChats(times: map<int, string>, default: string, chats: seq<int>, now: string,
                    messagesToday: int -> seq<Message>): (due: seq<int>)
    ensures |due| <= |chats|
  {
    if chats == [] then []
    else
      var init := DueChats(times, default, chats[..|chats| - 1], now, messagesToday);
      var c := chats[|chats| - 1];
      if IsDue(times, default, now, messagesToday, c) then init + [c] else init
  }

  /**
   * A chat is due exactly when it is listed, its time has come and it had
   * messages today. Being due does not guarantee a digest: a failing summary
   * ends the job for the due chats after it (`JobRunServesDueChats`).
   */
  lemma {:induction false} DueChatsMembers(times: map<int, string>, default: string, chats: seq<int>, now: string,
                                           messagesToday: int -> seq<Message>, c: int)
    ensures c in DueChats(times, default, chats, now, messagesToday) <==>
              c in chats && DigestTimeOf(times, default, c) == now && messagesToday(c) != []
  {
    if chats != [] {
      DueChatsMembers(times, default, chats[..|chats| - 1], now, messagesToday, c);
      assert chats == chats[..|chats| - 1] + [chats[|chats| - 1]];
    }
  }

  /**
   * The per-chat settings table (`chat_settings.digest_time`), as far as the
   * bot reads and writes it: a chat without a row has no stored time.
   */
  class Settings {
    const defaultTime: string
    var digestTimes: map<int, string>

    /** Every stored time was accepted by the format check. */
    ghost predicate Valid()
      reads this
    {
      forall c :: c in digestTimes ==> IsDigestTime(digestTimes[c])
    }

    constructor (defaultTime: string)
      ensures Valid()
      ensures this.defaultTime == defaultTime && digestTimes == map[]
    {
      this.defaultTime := defaultTime;
      digestTimes := map[];
    }

    /**
     * `/digest_time [HH:MM]` in chat `chat` (bot.py:135-148): nothing for a chat
     * outside the allow-list; the current time without an argument; a stored
     * time only for an argument in the accepted format.
     */
    method DigestTimeCommand(allowed: seq<int>, chat: int, args: seq<string>) returns (reply: Option<string>)
      requires Valid()
      modifies this
      ensures Valid()
      ensures !AllowChat(allowed, chat) ==> reply == None && digestTimes == old(digestTimes)
      ensures AllowChat(allowed, chat) && args == [] ==>
                reply == Some(CurrentTimeText(DigestTimeOf(old(digestTimes), defaultTime, chat)))
                && digestTimes == old(digestTimes)
      ensures AllowChat(allowed, chat) && args != [] && !IsDigestTime(args[0]) ==>
                reply == Some(BadFormatText) && digestTimes == old(digestTimes)
      ensures AllowChat(allowed, chat) && args != [] && IsDigestTime(args[0]) ==>
                reply == Some(UpdatedText(args[0])) && digestTimes == old(digestTimes)[chat := args[0]]
    {
      if !AllowChat(allowed, chat) {
        return None;
      }
      if args == [] {
        return Some(CurrentTimeText(DigestTimeOf(digestTimes, defaultTime, chat)));
      }
      var time := args[0];
      if !IsDigestTime(time) {
        return Some(BadFormatText);
      }
      digestTimes := digestTimes[chat := time];
      reply := Some(UpdatedText(time));
    }

    /**
     * `daily_digest_job` (bot.py:261-278) over the chats `storage.all_chats()`
     * lists. `digestOf(c)` is the outcome of `summarize_window` on chat `c`'s
     * messages in this run. Each digest obtained is handed to `send_message`,
     * whose failures are caught, so it is returned in `digests`. A failing
     * summary is not caught: it ends the job and no later chat is served.
     */
    method DigestJob(chats: seq<int>, now: string, messagesToday: int -> seq<Message>,
                     digestOf: int -> Result<string>)
      returns (digests: seq<Digest>, failure: Option<string>)
      ensures JobReport(digests, failure) == JobRun(digestTimes, defaultTime, now, messagesToday, digestOf, chats)
    {
      ghost var total := JobRun(digestTimes, defaultTime, now, messagesToday, digestOf, chats);
      digests := [];
      for i := 0 to |chats|
        invariant Resume(digests, JobRun(digestTimes, defaultTime, now, messagesToday, digestOf, chats[i..])) == total
      {
        JobStep(digestTimes, defaultTime, now, messagesToday, digestOf, chats, i);
        var desired := DigestTimeOf(digestTimes, defaultTime, chats[i]);
        if desired != now {
          continue;
        }
        var msgs := messagesToday(chats[i]);
        if msgs == [] {
          continue;
        }
        var digest := digestOf(chats[i]);
        if digest.Err? {
          assert digests + [] == digests;
          return digests, Some(digest.error);
        }
        AppendAssoc(digests, [Digest(chats[i], digest.value)],
                    JobRun(digestTimes, defaultTime, now, messagesToday, digestOf, chats[i + 1..]).digests);
        digests := digests + [Digest(chats[i], digest.value)];
      }
      assert chats[|chats|..] == [];
      assert digests + [] == digests;
      failure := None;
    }
  }

  /** A digest produced for a chat. */
  datatype Digest = Digest(chat: int, text: string)

  /** What one run of the job did: the digests it produced, in order, and the failure that ended it, if any. */
  datatype JobReport = JobReport(digests: seq<Digest>, failure: Option<string>)

  /** The report of a job that had already produced `earlier` before going on as `later`. */
  function Resume(earlier: seq<Digest>, later: JobReport): JobReport {
    JobReport(earlier + later.digests, later.failure)
  }

  /** The job over `chats`, front to back: due chats are summarised until a summary fails. */
  function JobRun(times: map<int, string>, default: string, now: string, messagesToday: int -> seq<Message>,
                  digestOf: int -> Result<string>, chats: seq<int>): JobReport
  {
    if chats == [] then JobReport([], None)
    else if !IsDue(times, default, now, messagesToday, chats[0]) then
      JobRun(times, default, now, messagesToday, digestOf, chats[1..])
    else match digestOf(chats[0])
      case Err(e) => JobReport([], Some(e))
      case Ok(d) => Resume([Digest(chats[0], d)], JobRun(times, default, now, messagesToday, digestOf, chats[1..]))
  }

  /** One step of the job loop: the run from chat `i` on, in terms of the run from chat `i + 1` on. */
  lemma JobStep(times: map<int, string>, default: string, now: string, messagesToday: int -> seq<Message>,
                digestOf: int -> Result<string>, chats: seq<int>, i: nat)
    requires i < |chats|
    ensures !IsDue(times, default, now, messagesToday, chats[i]) ==>
              JobRun(times, default, now, messagesToday, digestOf, chats[i..])
                == JobRun(times, default, now, messagesToday, digestOf, chats[i + 1..])
    ensures IsDue(times, default, now, messagesToday, chats[i]) && digestOf(chats[i]).Err? ==>
              JobRun(times, default, now, messagesToday, digestOf, chats[i..])
                == JobReport([], Some(digestOf(chats[i]).error))
    ensures IsDue(times, default, now, messagesToday, chats[i]) && digestOf(chats[i]).Ok? ==>
              JobRun(times, default, now, messagesToday, digestOf, chats[i..])
                == Resume([Digest(chats[i], digestOf(chats[i]).value)],
                          JobRun(times, default, now, messagesToday, digestOf, chats[i + 1..]))
  {
    assert chats[i..][0] == chats[i] && chats[i..][1..] == chats[i + 1..];
  }

  /**
   * `report` serves the chats `due` in order, each with its digest, up to the
   * first whose summary fails; that failure ends the report, and the chats
   * after it get nothing.
   */
  ghost predicate Serves(report: JobReport, due: seq<int>, digestOf: int -> Result<string>) {
    && |report.digests| <= |due|
    && (forall i :: 0 <= i < |report.digests| ==>
          report.digests[i].chat == due[i] && digestOf(due[i]) == Ok(report.digests[i].text))
    && (report.failure.None? ==> |report.digests| == |due|)
    && (report.failure.Some? ==> |report.digests| < |due| && digestOf(due[|report.digests|]) == Err(report.failure.value))
  }

  /** A chat whose digest succeeds goes in front of what serves the chats after it. */
  lemma ServesCons(report: JobReport, due: seq<int>, digestOf: int -> Result<string>, c: int)
    requires Serves(report, due, digestOf) && digestOf(c).Ok?
    ensures Serves(Resume([Digest(c, digestOf(c).value)], report), [c] + due, digestOf)
  {
    var all := [c] + due;
    var ds := [Digest(c, digestOf(c).value)] + report.digests;
    forall i | 0 <= i < |ds|
      ensures ds[i].chat == all[i] && digestOf(all[i]) == Ok(ds[i].text)
    {
      if i > 0 {
        assert ds[i] == report.digests[i - 1] && all[i] == due[i - 1];
      }
    }
  }

  /** A failing first chat ends the report, whatever follows it. */
  lemma ServesFailure(due: seq<int>, digestOf: int -> Result<string>, c: int)
    requires digestOf(c).Err?
    ensures Serves(JobReport([], Some(digestOf(c).error)), [c] + due, digestOf)
  {
  }

  /** The due chats of `chats`, from its first chat on. */
  lemma DueChatsFront(times: map<int, string>, default: string, chats: seq<int>, now: string,
                      messagesToday: int -> seq<Message>)
    requires chats != []
    ensures IsDue(times, default, now, messagesToday, chats[0]) ==>
              DueChats(times, default, chats, now, messagesToday)
                == [chats[0]] + DueChats(times, default, chats[1..], now, messagesToday)
    ensures !IsDue(times, default, now, messagesToday, chats[0]) ==>
              DueChats(times, default, chats, now, messagesToday)
                == DueChats(times, default, chats[1..], now, messagesToday)
  {
    DueChatsAppend(times, default, [chats[0]], chats[1..], now, messagesToday);
    assert [chats[0]] + chats[1..] == chats;
    assert [chats[0]][..0] == [];
  }

  /** The job's report serves the chats `DueChats` chooses. */
  lemma {:induction false} JobRunServesDueChats(times: map<int, string>, default: string, now: string,
                                                messagesToday: int -> seq<Message>,
                                                digestOf: int -> Result<string>, chats: seq<int>)
    ensures Serves(JobRun(times, default, now, messagesToday, digestOf, chats),
                   DueChats(times, default, chats, now, messagesToday), digestOf)
  {
    if chats != [] {
      var c, rest := chats[0], chats[1..];
      var later := JobRun(times, default, now, messagesToday, digestOf, rest);
      var due := DueChats(times, default, rest, now, messagesToday);
      JobRunServesDueChats(times, default, now, messagesToday, digestOf, rest);
      DueChatsFront(times, default, chats, now, messagesToday);
      if IsDue(times, default, now, messagesToday, c) {
        if digestOf(c).Ok? {
          ServesCons(later, due, digestOf, c);
        } else {
          ServesFailure(due, digestOf, c);
        }
      }
    }
  }

  /** The due chats of a concatenated list are those of each part, in turn. */
  lemma {:induction false} DueChatsAppend(times: map<int, string>, default: string, a: seq<int>, b: seq<int>,
                                          now: string, messagesToday: int -> seq<Message>)
    ensures DueChats(times, default, a + b, now, messagesToday)
              == DueChats(times, default, a, now, messagesToday) + DueChats(times, default, b, now, messagesToday)
    decreases |b|
  {
    if b == [] {
      assert a + b == a;
    } else {
      var init, last := b[..|b| - 1], b[|b| - 1];
      DueChatsAppend(times, default, a, init, now, messagesToday);
      LastSplit(b);
      AppendAssoc(a, init, [last]);
      DropLast(a + init, last);
      DropLast(init, last);
      if IsDue(times, default, now, messagesToday, last) {
        AppendAssoc(DueChats(times, default, a, now, messagesToday),
                    DueChats(times, default, init, now, messagesToday), [last]);
      }
    }
  }

  /** Two due chats, and the first one's summary fails: the second gets no digest in this run. */
  lemma FailureStopsLaterChats(times: map<int, string>, default: string, now: string,
                               messagesToday: int -> seq<Message>, digestOf: int -> Result<string>, a: int, b: int)
    requires IsDue(times, default, now, messagesToday, a) && IsDue(times, default, now, messagesToday, b)
    requires digestOf(a).Err?
    ensures JobRun(times, default, now, messagesToday, digestOf, [a, b]) == JobReport([], Some(digestOf(a).error))
  {
  }

  /**
   * In a valid settings table a stored time is never empty, so the default
   * applies only to chats without one.
   */
  lemma StoredTimeWins(s: Settings, chat: int)
    requires s.Valid()
    ensures chat in s.digestTimes ==> DigestTimeOf(s.digestTimes, s.defaultTime, chat) == s.digestTimes[chat]
    ensures chat !in s.digestTimes ==> DigestTimeOf(s.digestTimes, s.defaultTime, chat) == s.defaultTime
  {
  }

  /** After `/digest_time t` is accepted, the chat's digest is due at `t` and no other chat's time moves. */
  lemma UpdateTakesEffect(times: map<int, string>, default: string, chat: int, t: string, other: int)
    requires IsDigestTime(t) && other != chat
    ensures DigestTimeOf(times[chat := t], default, chat) == t
    ensures DigestTimeOf(times[chat := t], default, other) == DigestTimeOf(times, default, other)
  {
  }

  // ---------------------------------------------------------------- search and stats replies

  /** The ellipsis `…` that ends a shortened snippet. */
  const Ellipsis: char := '…'

  /** A message text as `/search` shows it: at most 200 characters of it, then `…` if it was longer. */
  function Snippet(text: string): (r: string)
    ensures |text| <= 200 ==> r == text
    ensures |text| > 200 ==> |r| == 201 && r[..200] == text[..200] && r[200] == Ellipsis
  {
    if |text| > 200 then text[..200] + [Ellipsis] else text
  }

  /** A snippet never exceeds 201 characters and always starts the text. */
  lemma SnippetBounded(text: string)
    ensures |Snippet(text)| <= 201
    ensures var n := if |text| < 200 then |text| else 200; Snippet(text)[..n] == text[..n]
  {
  }

  /**
   * The user as `/search` and `/stats` show it (bot.py:92, 108): `@` and the
   * username when there is a non-empty one, else the bare user id (`None` when
   * there is none).
   */
  function UserLabel(username: Option<string>, userId: Option<int>): (r: string)
    ensures r != ""
    ensures r[0] == '@' <==> username.Some? && username.value != ""
  {
    if username.Some? && username.value != "" then "@" + username.value
    else if userId.Some? then IntToString(userId.value)
    else "None"
  }

  /**
   * The label a chunked transcript gives the same message always has the `@`;
   * the search label has it only when there is a username.
   */
  lemma LabelAgainstTranscript(m: Message)
    ensures m.username.Some? && m.username.value != "" ==> UserLabel(m.username, m.userId) == "@" + Sender(m)
    ensures !(m.username.Some? && m.username.value != "") ==> UserLabel(m.username, m.userId) == Sender(m)
  {
  }

  /**
   * The user column of `/export_hits` (bot.py:196): `@` and the username, else
   * the id, else empty, since a zero id is as false as a missing one.
   */
  function ExportLabel(username: Option<string>, userId: Option<int>): (r: string)
    ensures r == "" <==> !(username.Some? && username.value != "") && (userId.None? || userId.value == 0)
  {
    if username.Some? && username.value != "" then "@" + username.value
    else if userId.Some? && userId.value != 0 then IntToString(userId.value)
    else ""
  }

  /** The bullet that starts each line of a `/search` or `/stats` reply, and the dash after its first field. */
  const Bullet: string := "• "
  const Dash: string := " — "

  /** One result row of `storage.search`. */
  datatype Found = Found(date: int, username: Option<string>, userId: Option<int>, text: string)

  /** A `/search` reply line; `stamp` renders a timestamp as `%Y-%m-%d %H:%M`. */
  function SearchLine(stamp: int -> string, row: Found): string {
    Bullet + stamp(row.date) + Dash + UserLabel(row.username, row.userId) + ": " + Snippet(row.text)
  }

  /** The loop of `search` (bot.py:89-94): one line per result, in order. */
  method SearchLines(stamp: int -> string, rows: seq<Found>) returns (lines: seq<string>)
    ensures |lines| == |rows|
    ensures forall i :: 0 <= i < |rows| ==> lines[i] == SearchLine(stamp, rows[i])
  {
    ghost var expected := seq(|rows|, j requires 0 <= j < |rows| => SearchLine(stamp, rows[j]));
    lines := [];
    for i := 0 to |rows|
      invariant lines == expected[..i]
    {
      PrefixStep(expected, i);
      lines := lines + [SearchLine(stamp, rows[i])];
    }
    WholePrefix(expected);
  }

  /** Every search line ends with the snippet of its message. */
  lemma SearchLineEndsWithSnippet(stamp: int -> string, row: Found)
    ensures var line := SearchLine(stamp, row);
            |line| >= |Snippet(row.text)| && line[|line| - |Snippet(row.text)|..] == Snippet(row.text)
  {
    var prefix := Bullet + stamp(row.date) + Dash + UserLabel(row.username, row.userId) + ": ";
    assert SearchLine(stamp, row) == prefix + Snippet(row.text);
  }

  /** One row of `storage.top_users`. */
  datatype Poster = Poster(username: Option<string>, userId: Option<int>, count: int)

  const EmptyStatsText: string := "7 kunlik statistika bo‘sh."
  const StatsTotalLabel: string := "Oxirgi 7 kunda jami xabarlar: "
  const StatsTopHeading: string := "Top ishtirokchilar:"

  /** A `/stats` line: the poster and their message count. */
  function PosterLine(u: Poster): string {
    Bullet + UserLabel(u.username, u.userId) + Dash + IntToString(u.count) + " ta"
  }

  /**
   * The lines of `/stats` (bot.py:103-109): the empty-statistics text when the
   * count is zero, else the total, a heading and one line per top poster.
   */
  method StatsLines(total: int, top: seq<Poster>) returns (lines: seq<string>)
    ensures total == 0 ==> lines == [EmptyStatsText]
    ensures total != 0 ==> |lines| == |top| + 2
    ensures total != 0 ==> lines[0] == StatsTotalLabel + IntToString(total)
    ensures total != 0 ==> lines[1] == StatsTopHeading
    ensures total != 0 ==> forall i :: 0 <= i < |top| ==> lines[i + 2] == PosterLine(top[i])
  {
    if total == 0 {
      return [EmptyStatsText];
    }
    lines := [StatsTotalLabel + IntToString(total), StatsTopHeading];
    for i := 0 to |top|
      invariant |lines| == i + 2
      invariant lines[0] == StatsTotalLabel + IntToString(total)
      invariant lines[1] == StatsTopHeading
      invariant forall j :: 0 <= j < i ==> lines[j + 2] == PosterLine(top[j])
    {
      lines := lines + [PosterLine(top[i])];
    }
  }

  // ---------------------------------------------------------------- export window

  const DefaultExportDays: int := 7

  /** `int(args[0]) if args else 7`, with 7 also when the argument is not an integer. */
  function ExportDays(args: seq<string>): (r: int)
    ensures r == DefaultExportDays || (args != [] && ParseInt(args[0]) == Some(r))
    ensures args == [] ==> r == DefaultExportDays
  {
    if args == [] then DefaultExportDays
    else match ParseInt(args[0])
      case Some(d) => d
      case None => DefaultExportDays
  }

  /** Any integer given as the first argument is the window, negative or zero included. */
  lemma ExportDaysRoundTrip(d: int, rest: seq<string>)
    ensures ExportDays([IntToString(d)] + rest) == d
  {
    IntToStringRoundTrip(d);
  }

  /** Without a numeric first argument the window is seven days. */
  lemma ExportDaysDefault(args: seq<string>)
    requires args == [] || ParseInt(args[0]).None?
    ensures ExportDays(args) == 7
  {
  }
}

=== FILE: chunker.dfy ===
/**
 * The chunker of summarizer.py: a transcript of chat messages, one formatted
 * line per message, is cut into blocks under a character budget, greedily and
 * in order, without ever splitting a line.
 */
module Chunker {
  import opened Results
  import opened PyStr

  /** A stored chat message, as the storage layer hands it over. */
  datatype Message = Message(username: Option<string>, userId: Option<int>, text: string, date: int)

  /** The budget `chunk_messages` is called with when none is given. */
  const DefaultMaxChars: int := 8000

  /**
   * `m.get('username') or m.get('user_id')` as an f-string renders it: the
   * username when it is set and not empty, otherwise the user id (`None` when
   * that is missing too). It is never empty.
   */
  function Sender(m: Message): (name: string)
    ensures |name| > 0
  {
    if m.username.Some? && m.username.value != "" then m.username.value
    else match m.userId
      case Some(id) => IntToString(id)
      case None => "None"
  }

  /** The transcript line of one message; the `@` is there for a user id too. */
  function FormatLine(m: Message): (line: string)
    ensures |line| > |m.text| + 6
  {
    "- @" + Sender(m) + ": " + m.text + "\n"
  }

  /** The transcript lines of `msgs`, in order. */
  function Lines(msgs: seq<Message>): (lines: seq<string>)
    ensures |lines| == |msgs|
    ensures forall i :: 0 <= i < |msgs| ==> lines[i] == FormatLine(msgs[i])
  {
    seq(|msgs|, i requires 0 <= i < |msgs| => FormatLine(msgs[i]))
  }

  /** The concatenation of `parts`, in order. */
  function Flatten(parts: seq<string>): string {
    if parts == [] then "" else Flatten(parts[..|parts| - 1]) + parts[|parts| - 1]
  }

  // ---------------------------------------------------------------- splitting a line back

  /**
   * Reads a transcript line back into its sender and text: the sender runs from
   * after "- @" up to the first ':'.
   */
  function ParseLine(line: string): Option<(string, string)> {
    if |line| < 6 || line[..3] != "- @" || line[|line| - 1] != '\n' then None
    else
      var body := line[3..|line| - 1];
      var k := IndexOf(body, ':');
      if k + 1 < |body| && body[k + 1] == ' ' then Some((body[..k], body[k + 2..])) else None
  }

  /** The position of the first `c` in `s`, or `|s|` when there is none. */
  function IndexOf(s: string, c: char): (k: nat)
    ensures k <= |s|
    ensures c !in s[..k]
    ensures k < |s| ==> s[k] == c
  {
    if s == [] then 0 else if s[0] == c then 0 else 1 + IndexOf(s[1..], c)
  }

  /**
   * Each line names its message's sender and carries its text unchanged, so no
   * attribution is lost (a sender name never contains ':', which Telegram
   * usernames and decimal ids cannot).
   */
  lemma FormatLineAttributes(m: Message)
    requires ':' !in Sender(m)
    ensures ParseLine(FormatLine(m)) == Some((Sender(m), m.text))
  {
    var line := FormatLine(m);
    var s := Sender(m);
    var body := line[3..|line| - 1];
    assert body == s + ": " + m.text;
    assert body[..|s|] == s;
    IndexOfFirst(body, ':', |s|);
    assert body[|s| + 2..] == m.text;
  }

  lemma IndexOfFirst(s: string, c: char, k: nat)
    requires k < |s| && s[k] == c && c !in s[..k]
    ensures IndexOf(s, c) == k
  {
  }

  // ---------------------------------------------------------------- the greedy chunking

  /**
   * The blocks the chunker emits for the `rest` of the lines when the block
   * under construction holds `current`: a line joins the current block when the
   * two together fit in `maxChars`, otherwise the current block (if not empty)
   * is closed and the line starts the next one.
   */
  function Pack(rest: seq<string>, current: string, maxChars: int): seq<string>
    decreases |rest|
  {
    if rest == [] then
      (if current == "" then [] else [current])
    else if |current| + |rest[0]| > maxChars then
      (if current == "" then [] else [current]) + Pack(rest[1..], rest[0], maxChars)
    else
      Pack(rest[1..], current + rest[0], maxChars)
  }

  /** The blocks of a whole transcript. */
  function Chunks(lines: seq<string>, maxChars: int): seq<string> {
    Pack(lines, "", maxChars)
  }

  /**
   * `chunk_messages(msgs, max_chars)`: formats each message and packs the lines
   * into blocks, in one pass.
   */
  method ChunkMessages(msgs: seq<Message>, maxChars: int) returns (blocks: seq<string>)
    ensures blocks == Chunks(Lines(msgs), maxChars)
  {
    ghost var lines := Lines(msgs);
    ghost var total := Chunks(lines, maxChars);
    blocks := [];
    var current := "";
    for i := 0 to |msgs|
      invariant blocks + Pack(lines[i..], current, maxChars) == total
    {
      var line := "- @" + Sender(msgs[i]) + ": " + msgs[i].text + "\n";
      assert line == lines[i];
      if |current| + |line| > maxChars {
        CloseStep(blocks, lines, i, current, maxChars, total);
        if current != "" {
          blocks := blocks + [current];
        }
        current := line;
      } else {
        JoinStep(blocks, lines, i, current, maxChars, total);
        current := current + line;
      }
    }
    LastStep(blocks, lines, current, maxChars, total);
    if current != "" {
      blocks := blocks + [current];
    }
  }

  /** A line that does not fit beside the current block closes it and starts the next. */
  lemma CloseStep(blocks: seq<string>, lines: seq<string>, i: nat, current: string, maxChars: int, total: seq<string>)
    requires i < |lines| && |current| + |lines[i]| > maxChars
    requires blocks + Pack(lines[i..], current, maxChars) == total
    ensures current != "" ==> (blocks + [current]) + Pack(lines[i + 1..], lines[i], maxChars) == total
    ensures current == "" ==> blocks + Pack(lines[i + 1..], lines[i], maxChars) == total
  {
    assert lines[i..][0] == lines[i] && lines[i..][1..] == lines[i + 1..];
  }

  /** A line that fits beside the current block joins it. */
  lemma JoinStep(blocks: seq<string>, lines: seq<string>, i: nat, current: string, maxChars: int, total: seq<string>)
    requires i < |lines| && |current| + |lines[i]| <= maxChars
    requires blocks + Pack(lines[i..], current, maxChars) == total
    ensures blocks + Pack(lines[i + 1..], current + lines[i], maxChars) == total
  {
    assert lines[i..][0] == lines[i] && lines[i..][1..] == lines[i + 1..];
  }

  /** After the last line, the block under construction is emitted if it is not empty. */
  lemma LastStep(blocks: seq<string>, lines: seq<string>, current: string, maxChars: int, total: seq<string>)
    requires blocks + Pack(lines[|lines|..], current, maxChars) == total
    ensures blocks + (if current == "" then [] else [current]) == total
  {
    assert lines[|lines|..] == [];
  }

  // ---------------------------------------------------------------- what a chunking is

  /**
   * `blocks` cut `lines[from..]` at the indices `cuts`: each block is a run of
   * at least one whole line; a block of two or more lines fits in `maxChars`;
   * and a block that ends before the last line was closed because the next
   * line would not fit beside it.
   */
  ghost predicate IsChunkingFrom(blocks: seq<string>, lines: seq<string>, from: nat, cuts: seq<nat>, maxChars: int) {
    && |cuts| == |blocks| + 1
    && cuts[0] == from
    && cuts[|blocks|] == |lines|
    && forall j :: 0 <= j < |blocks| ==> BlockFits(blocks, lines, cuts, j, maxChars)
  }

  /** Block `j` is the run of lines from cut `j` to cut `j + 1`, as a chunking requires. */
  ghost predicate BlockFits(blocks: seq<string>, lines: seq<string>, cuts: seq<nat>, j: nat, maxChars: int) {
    && j < |blocks| && j + 1 < |cuts|
    && cuts[j] < cuts[j + 1] <= |lines|
    && blocks[j] == Flatten(lines[cuts[j]..cuts[j + 1]])
    && (|blocks[j]| <= maxChars || cuts[j + 1] == cuts[j] + 1)
    && (cuts[j + 1] < |lines| ==> |blocks[j]| + |lines[cuts[j + 1]]| > maxChars)
  }

  ghost predicate IsChunking(blocks: seq<string>, lines: seq<string>, cuts: seq<nat>, maxChars: int) {
    IsChunkingFrom(blocks, lines, 0, cuts, maxChars)
  }

  ghost predicate NoEmptyLine(lines: seq<string>) {
    forall i :: 0 <= i < |lines| ==> lines[i] != ""
  }

  lemma FlattenLast(parts: seq<string>, k: nat)
    requires k < |parts|
    ensures Flatten(parts[..k + 1]) == Flatten(parts[..k]) + parts[k]
  {
    assert parts[..k + 1][..k] == parts[..k];
  }

  lemma {:induction false} FlattenAppend(a: seq<string>, b: seq<string>)
    ensures Flatten(a + b) == Flatten(a) + Flatten(b)
    decreases |b|
  {
    if b == [] {
      assert a + b == a;
    } else {
      var b' := b[..|b| - 1];
      assert (a + b)[..|a + b| - 1] == a + b';
      assert (a + b)[|a + b| - 1] == b[|b| - 1];
      FlattenAppend(a, b');
      assert Flatten(b) == Flatten(b') + b[|b| - 1];
    }
  }

  lemma FlattenNonEmpty(parts: seq<string>)
    requires parts != [] && parts[|parts| - 1] != ""
    ensures Flatten(parts) != ""
  {
  }

  /** A run of lines ending at `i` grows by the next line. */
  lemma FlattenExtend(lines: seq<string>, s: nat, i: nat)
    requires s <= i < |lines|
    ensures Flatten(lines[s..i + 1]) == Flatten(lines[s..i]) + lines[i]
  {
    assert lines[s..i + 1][..i - s] == lines[s..i];
  }

  /** A longer run of lines flattens to at least as many characters. */
  lemma FlattenMonotone(lines: seq<string>, s: nat, a: nat, b: nat)
    requires s <= a <= b <= |lines|
    ensures |Flatten(lines[s..a])| <= |Flatten(lines[s..b])|
  {
    assert lines[s..b] == lines[s..a] + lines[a..b];
    FlattenAppend(lines[s..a], lines[a..b]);
  }

  /** A chunking of `lines[i..]` with one more block in front is a chunking of `lines[s..]`. */
  lemma ChunkingCons(block: seq<char>, tail: seq<string>, lines: seq<string>, s: nat, i: nat, tailCuts: seq<nat>, maxChars: int)
    requires IsChunkingFrom(tail, lines, i, tailCuts, maxChars)
    requires s < i <= |lines| && block == Flatten(lines[s..i])
    requires |block| <= maxChars || i == s + 1
    requires i < |lines| ==> |block| + |lines[i]| > maxChars
    ensures IsChunkingFrom([block] + tail, lines, s, [s] + tailCuts, maxChars)
  {
    var blocks, cuts := [block] + tail, [s] + tailCuts;
    assert cuts[|blocks|] == tailCuts[|tail|];
    forall j: nat | j < |blocks|
      ensures BlockFits(blocks, lines, cuts, j, maxChars)
    {
      if j == 0 {
        assert cuts[1] == i;
      } else {
        assert BlockFits(tail, lines, tailCuts, j - 1, maxChars);
        assert blocks[j] == tail[j - 1] && cuts[j] == tailCuts[j - 1] && cuts[j + 1] == tailCuts[j];
      }
    }
    assert |cuts| == |blocks| + 1;
    assert cuts[0] == s;
    assert cuts[|blocks|] == |lines|;
  }

  /**
   * The blocks packed from position `i` on, while the block under construction
   * holds `lines[s..i]`, cut `lines[s..]` as a chunking does.
   */
  lemma {:induction false} PackIsChunking(lines: seq<string>, s: nat, i: nat, maxChars: int) returns (cuts: seq<nat>)
    requires NoEmptyLine(lines)
    requires s <= i <= |lines|
    requires i - s >= 2 ==> |Flatten(lines[s..i])| <= maxChars
    ensures IsChunkingFrom(Pack(lines[i..], Flatten(lines[s..i]), maxChars), lines, s, cuts, maxChars)
    decreases |lines| - i
  {
    var current := Flatten(lines[s..i]);
    if s < i {
      FlattenNonEmpty(lines[s..i]);
    }
    if i == |lines| {
      assert lines[i..] == [];
      if s == i {
        assert lines[s..i] == [];
        cuts := [s];
      } else {
        ChunkingCons(current, [], lines, s, i, [i], maxChars);
        assert [current] + [] == [current];
        cuts := [s, i];
      }
    } else {
      var line := lines[i];
      assert lines[i..][0] == line && lines[i..][1..] == lines[i + 1..];
      FlattenExtend(lines, i, i);
      assert lines[i..i] == [];
      assert Flatten(lines[i..i + 1]) == line;
      if |current| + |line| > maxChars {
        var tailCuts := PackIsChunking(lines, i, i + 1, maxChars);
        if s == i {
          assert lines[s..i] == [];
          assert Pack(lines[i..], current, maxChars) == [] + Pack(lines[i + 1..], line, maxChars);
          assert [] + Pack(lines[i + 1..], line, maxChars) == Pack(lines[i + 1..], line, maxChars);
          cuts := tailCuts;
        } else {
          ChunkingCons(current, Pack(lines[i + 1..], line, maxChars), lines, s, i, tailCuts, maxChars);
          assert Pack(lines[i..], current, maxChars) == [current] + Pack(lines[i + 1..], line, maxChars);
          cuts := [s] + tailCuts;
        }
      } else {
        FlattenExtend(lines, s, i);
        assert Pack(lines[i..], current, maxChars) == Pack(lines[i + 1..], current + line, maxChars);
        cuts := PackIsChunking(lines, s, i + 1, maxChars);
      }
    }
  }

  /** The chunker's blocks are a greedy chunking of the transcript. */
  lemma ChunksAreChunking(lines: seq<string>, maxChars: int) returns (cuts: seq<nat>)
    requires NoEmptyLine(lines)
    ensures IsChunking(Chunks(lines, maxChars), lines, cuts, maxChars)
  {
    assert lines[0..] == lines && Flatten(lines[0..0]) == "";
    cuts := PackIsChunking(lines, 0, 0, maxChars);
  }

  lemma ChunkingTail(blocks: seq<string>, lines: seq<string>, from: nat, cuts: seq<nat>, maxChars: int)
    requires IsChunkingFrom(blocks, lines, from, cuts, maxChars) && blocks != []
    ensures IsChunkingFrom(blocks[1..], lines, cuts[1], cuts[1..], maxChars)
  {
    var tail, tailCuts := blocks[1..], cuts[1..];
    forall j: nat | j < |tail|
      ensures BlockFits(tail, lines, tailCuts, j, maxChars)
    {
      assert BlockFits(blocks, lines, cuts, j + 1, maxChars);
      assert tail[j] == blocks[j + 1] && tailCuts[j] == cuts[j + 1] && tailCuts[j + 1] == cuts[j + 2];
    }
    assert |tailCuts| == |tail| + 1 && tailCuts[|tail|] == cuts[|blocks|];
  }

  /** A chunking has no blocks exactly when it starts at the end of the lines. */
  lemma ChunkingEmpty(blocks: seq<string>, lines: seq<string>, from: nat, cuts: seq<nat>, maxChars: int)
    requires IsChunkingFrom(blocks, lines, from, cuts, maxChars)
    ensures blocks == [] <==> from == |lines|
  {
    if blocks != [] {
      assert BlockFits(blocks, lines, cuts, 0, maxChars);
    }
  }

  /** The first block of a chunking ends at the same line in any two chunkings. */
  lemma FirstCutUnique(b1: seq<string>, c1: seq<nat>, b2: seq<string>, c2: seq<nat>, lines: seq<string>, from: nat, maxChars: int)
    requires IsChunkingFrom(b1, lines, from, c1, maxChars) && IsChunkingFrom(b2, lines, from, c2, maxChars)
    requires b1 != [] && b2 != []
    ensures c1[1] == c2[1]
  {
    if c1[1] < c2[1] {
      FirstBlockClosed(b1, lines, from, c1, maxChars);
      FirstBlockWouldGrow(b1, c1, b2, c2, lines, from, maxChars);
      assert false;
    } else if c2[1] < c1[1] {
      FirstBlockClosed(b2, lines, from, c2, maxChars);
      FirstBlockWouldGrow(b2, c2, b1, c1, lines, from, maxChars);
      assert false;
    }
  }

  /** The first block of a chunking is a run of lines closed because the next one would not fit. */
  lemma FirstBlockClosed(blocks: seq<string>, lines: seq<string>, from: nat, cuts: seq<nat>, maxChars: int)
    requires IsChunkingFrom(blocks, lines, from, cuts, maxChars) && blocks != []
    ensures from < cuts[1] <= |lines| && blocks[0] == Flatten(lines[from..cuts[1]])
    ensures cuts[1] < |lines| ==> |blocks[0]| + |lines[cuts[1]]| > maxChars
  {
    assert BlockFits(blocks, lines, cuts, 0, maxChars);
  }

  /**
   * When another chunking's first block is longer, the first block of this one
   * could have taken its next line within the budget.
   */
  lemma FirstBlockWouldGrow(b1: seq<string>, c1: seq<nat>, b2: seq<string>, c2: seq<nat>, lines: seq<string>, from: nat, maxChars: int)
    requires IsChunkingFrom(b1, lines, from, c1, maxChars) && IsChunkingFrom(b2, lines, from, c2, maxChars)
    requires b1 != [] && b2 != []
    requires c1[1] < c2[1]
    ensures c1[1] < |lines| && |b1[0]| + |lines[c1[1]]| <= maxChars
  {
    var a, b := c1[1], c2[1];
    assert BlockFits(b1, lines, c1, 0, maxChars) && BlockFits(b2, lines, c2, 0, maxChars);
    assert from < a < b <= |lines|;
    // the longer first block holds two or more lines, so it fits
    assert |b2[0]| <= maxChars;
    FlattenExtend(lines, from, a);
    FlattenMonotone(lines, from, a + 1, b);
  }

  /**
   * The greedy rule leaves no choice: two chunkings of the same lines under
   * the same budget are the same blocks.
   */
  lemma {:induction false} ChunkingUnique(b1: seq<string>, c1: seq<nat>, b2: seq<string>, c2: seq<nat>, lines: seq<string>, from: nat, maxChars: int)
    requires IsChunkingFrom(b1, lines, from, c1, maxChars) && IsChunkingFrom(b2, lines, from, c2, maxChars)
    ensures b1 == b2
    decreases |lines| - from
  {
    ChunkingEmpty(b1, lines, from, c1, maxChars);
    ChunkingEmpty(b2, lines, from, c2, maxChars);
    if b1 != [] && b2 != [] {
      FirstBlockClosed(b1, lines, from, c1, maxChars);
      FirstBlockClosed(b2, lines, from, c2, maxChars);
      FirstCutUnique(b1, c1, b2, c2, lines, from, maxChars);
      ChunkingTail(b1, lines, from, c1, maxChars);
      ChunkingTail(b2, lines, from, c2, maxChars);
      ChunkingUnique(b1[1..], c1[1..], b2[1..], c2[1..], lines, c1[1], maxChars);
      assert b1 == [b1[0]] + b1[1..] && b2 == [b2[0]] + b2[1..];
    }
  }

  // ---------------------------------------------------------------- consequences

  lemma {:induction false} PackFlatten(rest: seq<string>, current: string, maxChars: int)
    ensures Flatten(Pack(rest, current, maxChars)) == current + Flatten(rest)
    decreases |rest|
  {
    if rest == [] {
      assert Flatten([current]) == Flatten([]) + current;
    } else {
      assert rest == [rest[0]] + rest[1..];
      FlattenAppend([rest[0]], rest[1..]);
      assert Flatten([rest[0]]) == rest[0];
      if |current| + |rest[0]| > maxChars {
        PackFlatten(rest[1..], rest[0], maxChars);
        var head: seq<string> := if current == "" then [] else [current];
        FlattenAppend(head, Pack(rest[1..], rest[0], maxChars));
        assert Flatten([current]) == current;
      } else {
        PackFlatten(rest[1..], current + rest[0], maxChars);
      }
    }
  }

  /** Concatenating the blocks in order gives back the whole transcript. */
  lemma ChunksFlatten(lines: seq<string>, maxChars: int)
    ensures Flatten(Chunks(lines, maxChars)) == Flatten(lines)
  {
    PackFlatten(lines, "", maxChars);
  }

  lemma {:induction false} PackNoEmptyBlock(rest: seq<string>, current: string, maxChars: int)
    ensures forall j :: 0 <= j < |Pack(rest, current, maxChars)| ==> Pack(rest, current, maxChars)[j] != ""
    decreases |rest|
  {
    if rest != [] {
      if |current| + |rest[0]| > maxChars {
        PackNoEmptyBlock(rest[1..], rest[0], maxChars);
      } else {
        PackNoEmptyBlock(rest[1..], current + rest[0], maxChars);
      }
    }
  }

  /** No block is empty. */
  lemma ChunksNoEmptyBlock(lines: seq<string>, maxChars: int)
    ensures forall j :: 0 <= j < |Chunks(lines, maxChars)| ==> Chunks(lines, maxChars)[j] != ""
  {
    PackNoEmptyBlock(lines, "", maxChars);
  }

  /** There are no blocks exactly when there are no lines. */
  lemma ChunksEmpty(lines: seq<string>, maxChars: int)
    requires NoEmptyLine(lines)
    ensures Chunks(lines, maxChars) == [] <==> lines == []
  {
    ChunksFlatten(lines, maxChars);
    if lines != [] {
      FlattenNonEmpty(lines);
    }
  }

  /**
   * Every block fits in `maxChars`, or else it is exactly one line of the
   * transcript, a line longer than `maxChars` on its own.
   */
  lemma ChunksWithinBudget(lines: seq<string>, maxChars: int)
    requires NoEmptyLine(lines)
    ensures forall j :: 0 <= j < |Chunks(lines, maxChars)| ==>
              |Chunks(lines, maxChars)[j]| <= maxChars
              || exists i :: 0 <= i < |lines| && Chunks(lines, maxChars)[j] == lines[i] && |lines[i]| > maxChars
  {
    var blocks := Chunks(lines, maxChars);
    var cuts := ChunksAreChunking(lines, maxChars);
    forall j | 0 <= j < |blocks| && |blocks[j]| > maxChars
      ensures exists i :: 0 <= i < |lines| && blocks[j] == lines[i] && |lines[i]| > maxChars
    {
      assert BlockFits(blocks, lines, cuts, j, maxChars);
      var i := cuts[j];
      assert lines[i..i + 1] == [lines[i]];
      assert Flatten([lines[i]]) == Flatten([]) + lines[i];
      assert blocks[j] == lines[i];
    }
  }

  lemma {:induction false} PackFits(rest: seq<string>, current: string, maxChars: int)
    requires |current| + |Flatten(rest)| <= maxChars
    ensures Pack(rest, current, maxChars) == if current + Flatten(rest) == "" then [] else [current + Flatten(rest)]
    decreases |rest|
  {
    if rest == [] {
      assert current + Flatten(rest) == current;
    } else {
      assert rest == [rest[0]] + rest[1..];
      FlattenAppend([rest[0]], rest[1..]);
      assert Flatten([rest[0]]) == Flatten([]) + rest[0];
      assert current + Flatten(rest) == (current + rest[0]) + Flatten(rest[1..]);
      PackFits(rest[1..], current + rest[0], maxChars);
    }
  }

  /** A transcript that fits in the budget is one block. */
  lemma ChunksSingleBlock(lines: seq<string>, maxChars: int)
    requires NoEmptyLine(lines) && lines != []
    requires |Flatten(lines)| <= maxChars
    ensures Chunks(lines, maxChars) == [Flatten(lines)]
  {
    PackFits(lines, "", maxChars);
    assert "" + Flatten(lines) == Flatten(lines);
    FlattenNonEmpty(lines);
  }

  /** Transcript lines are never empty, so the chunking lemmas apply to them. */
  lemma LinesNonEmpty(msgs: seq<Message>)
    ensures NoEmptyLine(Lines(msgs))
  {
  }
}

=== FILE: generation.dfy ===
/**
 * The chat-completion capability the summariser calls: a client object that
 * receives (system prompt, user prompt) requests and answers each with the
 * reply text or a failure. Model name and temperature are pass-through
 * constants and are not part of a request here.
 */
module Generation {
  import opened Results

  /** One chat-completion request. */
  datatype Request = Request(system: string, user: string)

  /**
   * The outcome the service gives to request number `n` of a client that
   * answers by `respond`: just `respond(n)`. It has a name so that statements
   * about all of a client's outcomes (`forall j :: ... Answer(respond, sent + j)`)
   * have a named function term to match on, which keeps the proofs about a
   * client's outcomes cheap.
   */
  function Answer(respond: nat -> Result<string>, n: nat): Result<string> {
    respond(n)
  }

  /**
   * A client. `respond(n)` is the outcome the service gives to the n-th request
   * this client sends (counting from 0) during one run: the reply's message
   * content, or the exception raised while creating the completion or reading
   * its content. `requests` records every request sent, in order.
   */
  class Generator {
    const respond: nat -> Result<string>
    var requests: seq<Request>

    constructor (respond: nat -> Result<string>)
      ensures this.respond == respond && requests == []
    {
      this.respond := respond;
      requests := [];
    }

    /** `client.chat.completions.create(...)` followed by `.choices[0].message.content`. */
    method Generate(system: string, user: string) returns (r: Result<string>)
      modifies this
      ensures requests == old(requests) + [Request(system, user)]
      ensures r == Answer(respond, |old(requests)|)
    {
      r := respond(|requests|);
      requests := requests + [Request(system, user)];
    }
  }
}

=== FILE: keywords.dfy ===
/**
 * `build_keyword_flags` of summarizer.py: which entries of a comma-separated
 * watch-list occur in a message, as `re.search(r"\b" + re.escape(k) + r"\b",
 * text, re.IGNORECASE)` decides. The escaped keyword matches itself literally,
 * character by character up to case; `\b` holds at a position where the
 * characters on its two sides differ in being word characters, the ends of the
 * text counting as non-word. What a word character is (Unicode `\w`) and how
 * case is ignored are parameters: `isWord` and `fold`.
 */
module Keywords {
  import opened PyStr
  import opened Seqs

  /** `\b` at position `p` of `text` (0 <= p <= |text|). */
  predicate Boundary(isWord: char -> bool, text: string, p: nat)
    requires p <= |text|
  {
    (p > 0 && isWord(text[p - 1])) != (p < |text| && isWord(text[p]))
  }

  /** `a` and `b` are equal character by character once case is ignored. */
  predicate SameIgnoringCase(fold: char -> char, a: string, b: string) {
    |a| == |b| && forall i :: 0 <= i < |a| ==> fold(a[i]) == fold(b[i])
  }

  /** The pattern for keyword `k` matches `text` starting at position `p`. */
  predicate MatchAt(fold: char -> char, isWord: char -> bool, text: string, k: string, p: nat) {
    && p + |k| <= |text|
    && SameIgnoringCase(fold, text[p..p + |k|], k)
    && Boundary(isWord, text, p)
    && Boundary(isWord, text, p + |k|)
  }

  /** `k` occurs in `text` as a whole word, ignoring case. */
  ghost predicate Occurs(fold: char -> char, isWord: char -> bool, text: string, k: string) {
    exists p: nat :: MatchAt(fold, isWord, text, k, p)
  }

  /** `re.search` from position `from` on: is there a match at `from` or later? */
  function SearchFrom(fold: char -> char, isWord: char -> bool, text: string, k: string, from: nat): (found: bool)
    ensures found <==> exists p: nat :: from <= p && MatchAt(fold, isWord, text, k, p)
    decreases |text| + 1 - from
  {
    if from + |k| > |text| then false
    else MatchAt(fold, isWord, text, k, from) || SearchFrom(fold, isWord, text, k, from + 1)
  }

  /** `re.search(...) is not None`. */
  function Search(fold: char -> char, isWord: char -> bool, text: string, k: string): (found: bool)
    ensures found <==> Occurs(fold, isWord, text, k)
  {
    SearchFrom(fold, isWord, text, k, 0)
  }

  /** The stripped, non-empty pieces, in order. */
  function Entries(pieces: seq<string>): (ks: seq<string>)
    ensures |ks| <= |pieces|
    ensures forall i :: 0 <= i < |ks| ==> ks[i] != ""
  {
    if pieces == [] then []
    else
      var k := Strip(pieces[|pieces| - 1]);
      var init := Entries(pieces[..|pieces| - 1]);
      if k == "" then init else init + [k]
  }

  /** The keywords a watch-list names: `[]` for the empty list. */
  function WatchList(csv: string): (ks: seq<string>)
    ensures forall i :: 0 <= i < |ks| ==> ks[i] != ""
  {
    if csv == "" then [] else Entries(Split(csv, ','))
  }

  /** The keywords of `ks` that occur in `text`, in order, repetitions kept. */
  function Flagged(fold: char -> char, isWord: char -> bool, text: string, ks: seq<string>): (flags: seq<string>)
    ensures |flags| <= |ks|
  {
    if ks == [] then []
    else
      var init := Flagged(fold, isWord, text, ks[..|ks| - 1]);
      var k := ks[|ks| - 1];
      if Search(fold, isWord, text, k) then init + [k] else init
  }

  /** `build_keyword_flags(text, keywords_csv)`. */
  method BuildKeywordFlags(fold: char -> char, isWord: char -> bool, text: string, csv: string)
    returns (flags: seq<string>)
    ensures flags == Flagged(fold, isWord, text, WatchList(csv))
  {
    if csv == "" {
      return [];
    }
    var pieces := Split(csv, ',');
    flags := [];
    ghost var entries: seq<string> := [];
    for i := 0 to |pieces|
      invariant entries == Entries(pieces[..i])
      invariant flags == Flagged(fold, isWord, text, entries)
    {
      var k := Strip(pieces[i]);
      if k == "" {
        EntriesSkip(pieces, i);
        continue;
      }
      EntriesKeep(pieces, i);
      if Search(fold, isWord, text, k) {
        FlaggedHit(fold, isWord, text, entries, k);
        flags := flags + [k];
      } else {
        FlaggedMiss(fold, isWord, text, entries, k);
      }
      entries := entries + [k];
    }
    WholePrefix(pieces);
  }

  /** A blank piece adds no entry. */
  lemma EntriesSkip(pieces: seq<string>, i: nat)
    requires i < |pieces| && Strip(pieces[i]) == ""
    ensures Entries(pieces[..i + 1]) == Entries(pieces[..i])
  {
    DropLast(pieces[..i], pieces[i]);
    PrefixStep(pieces, i);
  }

  /** A piece that is not blank adds its stripped text as the next entry. */
  lemma EntriesKeep(pieces: seq<string>, i: nat)
    requires i < |pieces| && Strip(pieces[i]) != ""
    ensures Entries(pieces[..i + 1]) == Entries(pieces[..i]) + [Strip(pieces[i])]
  {
    DropLast(pieces[..i], pieces[i]);
    PrefixStep(pieces, i);
  }

  /** Appending a piece that is not blank appends its stripped text to the entries. */
  lemma EntriesAppend(pieces: seq<string>, p: string)
    requires Strip(p) != ""
    ensures Entries(pieces + [p]) == Entries(pieces) + [Strip(p)]
  {
    DropLast(pieces, p);
  }

  /** A keyword that occurs is flagged after those before it. */
  lemma FlaggedHit(fold: char -> char, isWord: char -> bool, text: string, ks: seq<string>, k: string)
    requires Search(fold, isWord, text, k)
    ensures Flagged(fold, isWord, text, ks + [k]) == Flagged(fold, isWord, text, ks) + [k]
  {
    DropLast(ks, k);
  }

  /** A keyword that does not occur adds no flag. */
  lemma FlaggedMiss(fold: char -> char, isWord: char -> bool, text: string, ks: seq<string>, k: string)
    requires !Search(fold, isWord, text, k)
    ensures Flagged(fold, isWord, text, ks + [k]) == Flagged(fold, isWord, text, ks)
  {
    DropLast(ks, k);
  }

  // ---------------------------------------------------------------- properties

  /** A keyword is flagged exactly when it is a listed keyword that occurs in the text. */
  lemma {:induction false} FlaggedMembers(fold: char -> char, isWord: char -> bool, text: string, ks: seq<string>, k: string)
    ensures k in Flagged(fold, isWord, text, ks) <==> k in ks && Occurs(fold, isWord, text, k)
  {
    if ks != [] {
      var init, last := ks[..|ks| - 1], ks[|ks| - 1];
      FlaggedMembers(fold, isWord, text, init, k);
      LastSplit(ks);
      if Search(fold, isWord, text, last) {
        FlaggedHit(fold, isWord, text, init, last);
      } else {
        FlaggedMiss(fold, isWord, text, init, last);
      }
    }
  }

  /** When every keyword occurs, all are flagged, in order and with repetitions. */
  lemma {:induction false} AllOccurFlagged(fold: char -> char, isWord: char -> bool, text: string, ks: seq<string>)
    requires forall i :: 0 <= i < |ks| ==> Occurs(fold, isWord, text, ks[i])
    ensures Flagged(fold, isWord, text, ks) == ks
  {
    if ks != [] {
      var init, last := ks[..|ks| - 1], ks[|ks| - 1];
      AllOccurFlagged(fold, isWord, text, init);
      LastSplit(ks);
      FlaggedHit(fold, isWord, text, init, last);
    }
  }

  /** When no keyword occurs, nothing is flagged. */
  lemma {:induction false} NoneOccurNothingFlagged(fold: char -> char, isWord: char -> bool, text: string, ks: seq<string>)
    requires forall i :: 0 <= i < |ks| ==> !Occurs(fold, isWord, text, ks[i])
    ensures Flagged(fold, isWord, text, ks) == []
  {
    if ks != [] {
      var init, last := ks[..|ks| - 1], ks[|ks| - 1];
      NoneOccurNothingFlagged(fold, isWord, text, init);
      LastSplit(ks);
      FlaggedMiss(fold, isWord, text, init, last);
    }
  }

  /** Flagging a concatenated list flags each part in turn. */
  lemma {:induction false} FlaggedAppend(fold: char -> char, isWord: char -> bool, text: string, ks: seq<string>, ls: seq<string>)
    ensures Flagged(fold, isWord, text, ks + ls) == Flagged(fold, isWord, text, ks) + Flagged(fold, isWord, text, ls)
    decreases |ls|
  {
    if ls == [] {
      assert ks + ls == ks;
    } else {
      var init, last := ls[..|ls| - 1], ls[|ls| - 1];
      FlaggedAppend(fold, isWord, text, ks, init);
      LastSplit(ls);
      AppendAssoc(ks, init, [last]);
      if Search(fold, isWord, text, last) {
        FlaggedHit(fold, isWord, text, init, last);
        FlaggedHit(fold, isWord, text, ks + init, last);
        AppendAssoc(Flagged(fold, isWord, text, ks), Flagged(fold, isWord, text, init), [last]);
      } else {
        FlaggedMiss(fold, isWord, text, init, last);
        FlaggedMiss(fold, isWord, text, ks + init, last);
      }
    }
  }

  /** An entry of the watch-list is a listed piece, stripped, that is not blank; and every such piece is an entry. */
  lemma {:induction false} EntriesMembers(pieces: seq<string>, k: string)
    ensures k in Entries(pieces) <==> k != "" && exists p :: p in pieces && Strip(p) == k
  {
    if pieces != [] {
      var n := |pieces| - 1;
      EntriesMembers(pieces[..n], k);
      LastSplit(pieces);
      WholePrefix(pieces);
      if Strip(pieces[n]) == "" {
        EntriesSkip(pieces, n);
      } else {
        EntriesKeep(pieces, n);
      }
    }
  }

  /** A watch-list written as `",".join(ks)` of clean keywords reads back as `ks`. */
  lemma {:induction false} WatchListRoundTrip(ks: seq<string>)
    requires forall i :: 0 <= i < |ks| ==> ks[i] != "" && Strip(ks[i]) == ks[i] && ',' !in ks[i]
    ensures WatchList(Join([','], ks)) == ks
  {
    if ks != [] {
      SplitJoin(ks, ',');
      EntriesOfClean(ks);
      assert Join([','], ks) != "" by {
        JoinNonEmpty(ks);
      }
    }
  }

  lemma {:induction false} EntriesOfClean(ks: seq<string>)
    requires forall i :: 0 <= i < |ks| ==> ks[i] != "" && Strip(ks[i]) == ks[i]
    ensures Entries(ks) == ks
  {
    if ks != [] {
      var init, last := ks[..|ks| - 1], ks[|ks| - 1];
      EntriesOfClean(init);
      LastSplit(ks);
      EntriesAppend(init, last);
    }
  }

  lemma JoinNonEmpty(ks: seq<string>)
    requires ks != [] && ks[0] != ""
    ensures Join([','], ks) != ""
  {
  }

  /** A blank or comma-only watch-list names no keyword: the empty-string guard changes nothing. */
  lemma {:induction false} BlankWatchList(pieces: seq<string>)
    requires forall i :: 0 <= i < |pieces| ==> Strip(pieces[i]) == ""
    ensures Entries(pieces) == []
  {
    if pieces != [] {
      BlankWatchList(pieces[..|pieces| - 1]);
    }
  }

  // ---------------------------------------------------------------- examples, with ASCII case and word characters

  function AsciiLower(c: char): char {
    if 'A' <= c <= 'Z' then (c as int + 32) as char else c
  }

  predicate AsciiWord(c: char) {
    ('a' <= c <= 'z') || ('A' <= c <= 'Z') || ('0' <= c <= '9') || c == '_'
  }

  /** A keyword whose first character does not occur in the text, up to case, occurs nowhere. */
  lemma FirstCharAbsent(fold: char -> char, isWord: char -> bool, text: string, k: string)
    requires k != []
    requires forall i :: 0 <= i < |text| ==> fold(text[i]) != fold(k[0])
    ensures !Occurs(fold, isWord, text, k)
  {
    forall p: nat
      ensures !MatchAt(fold, isWord, text, k, p)
    {
      if p + |k| <= |text| {
        assert text[p..p + |k|][0] == text[p];
      }
    }
  }

  lemma ConcertOccurs()
    ensures Occurs(AsciiLower, AsciiWord, "Bugun CONCERT bor", "concert")
  {
    var text := "Bugun CONCERT bor";
    assert text[6..13] == "CONCERT";
    assert SameIgnoringCase(AsciiLower, "CONCERT", "concert");
    assert Boundary(AsciiWord, text, 6) && Boundary(AsciiWord, text, 13);
    assert MatchAt(AsciiLower, AsciiWord, text, "concert", 6);
  }

  lemma EntriesPair(x: string, y: string)
    requires Strip(x) != "" && Strip(y) != ""
    ensures Entries([x, y]) == [Strip(x), Strip(y)]
  {
    var one: seq<string> := [x];
    assert Entries(one) == [Strip(x)] by {
      EntriesAppend([], x);
      assert [] + [x] == one;
    }
    EntriesAppend(one, y);
    assert one + [y] == [x, y];
  }

  /** A space after a comma does not reach the keyword: `"a, b"` names `a` and `b`. */
  lemma WatchListSpaced(a: string, b: string)
    requires a != "" && Strip(a) == a && ',' !in a
    requires b != "" && Strip(b) == b && ',' !in b
    ensures WatchList(a + ", " + b) == [a, b]
  {
    SpacedSplit(a, b);
    StripSpaceBefore(b);
    EntriesPair(a, [' '] + b);
  }

  lemma SpacedSplit(a: string, b: string)
    requires ',' !in a && ',' !in b
    ensures Split(a + ", " + b, ',') == [a, [' '] + b]
  {
    assert a + ", " + b == a + [','] + ([' '] + b);
    SplitAfterPiece(a, ',', [' '] + b);
    SplitNoSeparator([' '] + b, ',');
  }

  lemma StripSpaceBefore(b: string)
    ensures Strip([' '] + b) == Strip(b)
  {
    assert StripStart([' '] + b) == StripStart(b);
  }

  lemma VenueAbsent()
    ensures !Occurs(AsciiLower, AsciiWord, "Bugun CONCERT bor", "venue")
  {
    FirstCharAbsent(AsciiLower, AsciiWord, "Bugun CONCERT bor", "venue");
  }

  /** In "Bugun CONCERT bor", of the keywords "concert" and "venue" only "concert" is flagged. */
  lemma ConcertFlagged()
    ensures Flagged(AsciiLower, AsciiWord, "Bugun CONCERT bor", ["concert", "venue"]) == ["concert"]
  {
    ConcertOccurs();
    VenueAbsent();
    assert ["concert", "venue"][..1] == ["concert"];
  }

  /** No match where one character differs, up to case. */
  lemma MismatchAt(fold: char -> char, isWord: char -> bool, text: string, k: string, p: nat, j: nat)
    requires p + |k| <= |text| && j < |k|
    requires fold(text[p + j]) != fold(k[j])
    ensures !MatchAt(fold, isWord, text, k, p)
  {
    assert text[p..p + |k|][j] == text[p + j];
  }

  /** "concert" does not occur as a word in "concertmaster here". */
  lemma ConcertmasterNotFlagged()
    ensures !Occurs(AsciiLower, AsciiWord, "concertmaster here", "concert")
  {
    var text := "concertmaster here";
    var k := "concert";
    assert forall i :: 0 <= i < |text| && i != 0 && i != 3 ==> text[i] != 'c';
    forall p: nat
      ensures !MatchAt(AsciiLower, AsciiWord, text, k, p)
    {
      if p == 0 {
        assert !Boundary(AsciiWord, text, 7);
      } else if p == 3 {
        MismatchAt(AsciiLower, AsciiWord, text, k, p, 1);
      } else if p + |k| <= |text| {
        MismatchAt(AsciiLower, AsciiWord, text, k, p, 0);
      }
    }
  }

  /** "#tag" is not a word of "see #tag": no word character precedes the "#". */
  lemma HashTagAfterSpace()
    ensures !Occurs(AsciiLower, AsciiWord, "see #tag", "#tag")
  {
    var text := "see #tag";
    var k := "#tag";
    forall p: nat
      ensures !MatchAt(AsciiLower, AsciiWord, text, k, p)
    {
      if p == 4 {
        assert !Boundary(AsciiWord, text, 4) by {
          assert text[3] == ' ' && text[4] == '#';
        }
      } else if p + |k| <= |text| {
        assert text[p] != '#';
        MismatchAt(AsciiLower, AsciiWord, text, k, p, 0);
      }
    }
  }

  /** "#tag" is found in "x#tag", where the "x" before it is a word character. */
  lemma HashTagAfterWord()
    ensures Occurs(AsciiLower, AsciiWord, "x#tag", "#tag")
  {
    var text := "x#tag";
    assert text[1..5] == "#tag";
    assert Boundary(AsciiWord, text, 1) && Boundary(AsciiWord, text, 5);
    assert MatchAt(AsciiLower, AsciiWord, text, "#tag", 1);
  }
}

=== FILE: pystr.dfy ===
/**
 * The Python string built-ins the bot relies on, over `string` (a sequence of
 * Unicode scalar values, so Python's `len` and slicing carry over unchanged):
 * `str.isspace`, `str.strip`, `str.split(sep)`, `sep.join`, `str(int)` and `int(str)`.
 */
module PyStr {
  import opened Results
  import opened Seqs

  /** Python's `str.isspace` for one character. */
  predicate IsSpace(c: char) {
    || ('\t' <= c <= '\r')
    || ('\U{1c}' <= c <= '\U{1f}')
    || c == ' '
    || c == '\U{85}'
    || c == '\U{a0}'
    || c == '\U{1680}'
    || ('\U{2000}' <= c <= '\U{200a}')
    || c == '\U{2028}'
    || c == '\U{2029}'
    || c == '\U{202f}'
    || c == '\U{205f}'
    || c == '\U{3000}'
  }

  predicate IsDigit(c: char) {
    '0' <= c <= '9'
  }

  // ---------------------------------------------------------------- strip

  /** `s.lstrip()`: the longest suffix of `s` that does not start with whitespace. */
  function StripStart(s: string): (r: string)
    ensures |r| <= |s| && r == s[|s| - |r|..]
    ensures forall i :: 0 <= i < |s| - |r| ==> IsSpace(s[i])
    ensures r == [] || !IsSpace(r[0])
  {
    if s != [] && IsSpace(s[0]) then StripStart(s[1..]) else s
  }

  /** `s.rstrip()`: the longest prefix of `s` that does not end with whitespace. */
  function StripEnd(s: string): (r: string)
    ensures |r| <= |s| && r == s[..|r|]
    ensures forall i :: |r| <= i < |s| ==> IsSpace(s[i])
    ensures r == [] || !IsSpace(r[|r| - 1])
  {
    if s != [] && IsSpace(s[|s| - 1]) then StripEnd(s[..|s| - 1]) else s
  }

  /** The number of whitespace characters `s` starts with. */
  function LeadingSpace(s: string): nat {
    |s| - |StripStart(s)|
  }

  /**
   * `s.strip()`: the slice of `s` left after removing its leading and trailing
   * whitespace; it neither starts nor ends with whitespace.
   */
  function Strip(s: string): (r: string)
    ensures LeadingSpace(s) + |r| <= |s| && r == s[LeadingSpace(s)..LeadingSpace(s) + |r|]
    ensures forall i :: 0 <= i < LeadingSpace(s) ==> IsSpace(s[i])
    ensures forall i :: LeadingSpace(s) + |r| <= i < |s| ==> IsSpace(s[i])
    ensures r == [] || (!IsSpace(r[0]) && !IsSpace(r[|r| - 1]))
  {
    var t := StripStart(s);
    var r := StripEnd(t);
    assert r == s[|s| - |t|..][..|r|];
    r
  }

  /** Stripping leaves a string alone exactly when it has no whitespace at either end. */
  lemma StripIdentity(s: string)
    ensures Strip(s) == s <==> (s == [] || (!IsSpace(s[0]) && !IsSpace(s[|s| - 1])))
  {
  }

  // ---------------------------------------------------------------- split and join

  /** `s.split(sep)` for a one-character separator: every piece, empty ones included. */
  function Split(s: string, sep: char): (r: seq<string>)
    ensures |r| >= 1
    ensures forall i :: 0 <= i < |r| ==> sep !in r[i]
  {
    if s == [] then [""]
    else
      var rest := Split(s[1..], sep);
      if s[0] == sep then [""] + rest else [[s[0]] + rest[0]] + rest[1..]
  }

  /** `sep.join(parts)`. */
  function Join(sep: string, parts: seq<string>): string {
    if parts == [] then ""
    else if |parts| == 1 then parts[0]
    else parts[0] + sep + Join(sep, parts[1..])
  }

  /** Joining the pieces of a split with the same separator gives back the string. */
  lemma {:induction false} JoinSplit(s: string, sep: char)
    ensures Join([sep], Split(s, sep)) == s
  {
    if s != [] {
      var rest := Split(s[1..], sep);
      JoinSplit(s[1..], sep);
      if s[0] != sep && |rest| > 1 {
        assert Join([sep], rest) == rest[0] + [sep] + Join([sep], rest[1..]);
      }
    }
  }

  lemma {:induction false} SplitNoSeparator(p: string, sep: char)
    requires sep !in p
    ensures Split(p, sep) == [p]
  {
    if p != [] {
      SplitNoSeparator(p[1..], sep);
      assert [p[0]] + p[1..] == p;
    }
  }

  lemma {:induction false} SplitAfterPiece(p: string, sep: char, t: string)
    requires sep !in p
    ensures Split(p + [sep] + t, sep) == [p] + Split(t, sep)
  {
    if p == [] {
      assert p + [sep] + t == [sep] + t;
      assert ([sep] + t)[1..] == t;
    } else {
      SplitAfterPiece(p[1..], sep, t);
      assert (p + [sep] + t)[1..] == p[1..] + [sep] + t;
      assert [p[0]] + p[1..] == p;
    }
  }

  /** Splitting a join of separator-free pieces gives back the pieces. */
  lemma {:induction false} SplitJoin(parts: seq<string>, sep: char)
    requires parts != []
    requires forall i :: 0 <= i < |parts| ==> sep !in parts[i]
    ensures Split(Join([sep], parts), sep) == parts
  {
    if |parts| == 1 {
      SplitNoSeparator(parts[0], sep);
    } else {
      SplitJoin(parts[1..], sep);
      SplitAfterPiece(parts[0], sep, Join([sep], parts[1..]));
      assert [parts[0]] + parts[1..] == parts;
    }
  }

  /** `t` occurs in `s` as a contiguous piece. */
  ghost predicate Contains(s: string, t: string) {
    exists pre, post :: s == pre + t + post
  }

  /** Every part of a join occurs in it. */
  lemma {:induction false} JoinContains(sep: string, parts: seq<string>, i: nat)
    requires i < |parts|
    ensures Contains(Join(sep, parts), parts[i])
  {
    var joined := Join(sep, parts);
    if |parts| == 1 {
      assert joined == "" + parts[0] + "";
    } else if i == 0 {
      assert joined == "" + parts[0] + (sep + Join(sep, parts[1..]));
    } else {
      JoinContains(sep, parts[1..], i - 1);
      var pre, post :| Join(sep, parts[1..]) == pre + parts[1..][i - 1] + post;
      assert joined == (parts[0] + sep + pre) + parts[i] + post;
    }
  }

  /** A piece of `s` is still a piece once something is put in front of `s`. */
  lemma ContainsAfter(prefix: string, s: string, t: string)
    requires Contains(s, t)
    ensures Contains(prefix + s, t)
  {
    var pre, post :| s == pre + t + post;
    assert prefix + s == (prefix + pre) + t + post;
  }

  /** `s.replace(" ", "")`. */
  function RemoveSpaces(s: string): (r: string)
    ensures ' ' !in r
    ensures |r| <= |s|
    ensures forall c :: c in r <==> c in s && c != ' '
  {
    if s == [] then ""
    else (if s[0] == ' ' then "" else [s[0]]) + RemoveSpaces(s[1..])
  }

  /** Removing spaces works piece by piece: every other character is kept, in order. */
  lemma {:induction false} RemoveSpacesAppend(a: string, b: string)
    ensures RemoveSpaces(a + b) == RemoveSpaces(a) + RemoveSpaces(b)
  {
    if a == [] {
      assert a + b == b;
    } else {
      RemoveSpacesAppend(a[1..], b);
      assert (a + b)[0] == a[0] && (a + b)[1..] == a[1..] + b;
      var head: string := if a[0] == ' ' then "" else [a[0]];
      AppendAssoc(head, RemoveSpaces(a[1..]), RemoveSpaces(b));
    }
  }

  /** A space is removed; any other character stays. */
  lemma RemoveSpacesChar(c: char)
    ensures c == ' ' ==> RemoveSpaces([c]) == ""
    ensures c != ' ' ==> RemoveSpaces([c]) == [c]
  {
    assert [c][1..] == [];
  }

  // ---------------------------------------------------------------- str(int)

  function DigitChar(d: nat): (c: char)
    requires d < 10
    ensures IsDigit(c)
  {
    ('0' as int + d) as char
  }

  /** `str(n)` for a non-negative `n`: decimal digits, without leading zeros. */
  function NatToString(n: nat): (r: string)
    ensures |r| >= 1
    ensures forall i :: 0 <= i < |r| ==> IsDigit(r[i])
    ensures r[0] == '0' ==> n == 0
  {
    if n < 10 then [DigitChar(n)] else NatToString(n / 10) + [DigitChar(n % 10)]
  }

  /** `str(n)`. */
  function IntToString(n: int): (r: string)
    ensures |r| >= 1
    ensures forall i :: 0 <= i < |r| ==> IsDigit(r[i]) || r[i] == '-'
  {
    if n < 0 then "-" + NatToString(-n) else NatToString(n)
  }

  // ---------------------------------------------------------------- int(str)

  /** Digits with single underscores between them, as `int` accepts them. */
  predicate IsDigitRun(s: string) {
    && s != []
    && IsDigit(s[0])
    && IsDigit(s[|s| - 1])
    && (forall i :: 0 <= i < |s| ==> IsDigit(s[i]) || s[i] == '_')
    && (forall i :: 0 <= i < |s| - 1 ==> !(s[i] == '_' && s[i + 1] == '_'))
  }

  /** The number a run of digits and underscores denotes. */
  function DigitsValue(s: string): nat
    requires forall i :: 0 <= i < |s| ==> IsDigit(s[i]) || s[i] == '_'
  {
    if s == [] then 0
    else
      var c := s[|s| - 1];
      assert IsDigit(c) || c == '_';
      if c == '_' then DigitsValue(s[..|s| - 1])
      else 10 * DigitsValue(s[..|s| - 1]) + (c as int - '0' as int)
  }

  /**
   * `int(s)`: surrounding whitespace is ignored, then an optional sign and a run
   * of decimal digits; anything else raises ValueError, here `None`.
   */
  function ParseInt(s: string): Option<int> {
    ParseStripped(Strip(s))
  }

  /** `int` on a string without surrounding whitespace. */
  function ParseStripped(t: string): Option<int> {
    if t != [] && (t[0] == '+' || t[0] == '-') then
      if IsDigitRun(t[1..]) then
        var v: int := DigitsValue(t[1..]);
        Some(if t[0] == '-' then -v else v)
      else None
    else if IsDigitRun(t) then Some(DigitsValue(t))
    else None
  }

  lemma {:induction false} DigitsValueOfNat(n: nat)
    ensures DigitsValue(NatToString(n)) == n
  {
    if n >= 10 {
      var s := NatToString(n);
      DigitsValueOfNat(n / 10);
      assert s[..|s| - 1] == NatToString(n / 10);
    }
  }

  /** The decimal form of a natural number is a digit run that reads back as that number. */
  lemma NatStringDigits(n: nat)
    ensures IsDigitRun(NatToString(n)) && DigitsValue(NatToString(n)) == n
  {
    DigitsValueOfNat(n);
  }

  /** A string of digits and minus signs has no whitespace to strip. */
  lemma StripNumeral(s: string)
    requires s != []
    requires forall i :: 0 <= i < |s| ==> IsDigit(s[i]) || s[i] == '-'
    ensures Strip(s) == s
  {
    StripIdentity(s);
  }

  /** A minus sign before a digit run reads as the negated value. */
  lemma ParseMinusDigits(t: string, v: int)
    requires IsDigitRun(t) && DigitsValue(t) == -v
    ensures ParseStripped("-" + t) == Some(v)
  {
    assert ("-" + t)[0] == '-' && ("-" + t)[1..] == t;
  }

  lemma ParseNatString(n: int)
    requires n >= 0
    ensures ParseInt(IntToString(n)) == Some(n)
  {
    var s := IntToString(n);
    StripNumeral(s);
    NatStringDigits(n);
    assert s == NatToString(n) && !(s[0] == '+' || s[0] == '-');
  }

  lemma ParseNegativeString(n: int)
    requires n < 0
    ensures ParseInt(IntToString(n)) == Some(n)
  {
    var s := IntToString(n);
    StripNumeral(s);
    NatStringDigits(-n);
    var t := NatToString(-n);
    ParseMinusDigits(t, n);
    assert s == "-" + t;
  }

  /** `int(str(n)) == n`: every integer is read back from its decimal form. */
  lemma IntToStringRoundTrip(n: int)
    ensures ParseInt(IntToString(n)) == Some(n)
  {
    if n < 0 {
      ParseNegativeString(n);
    } else {
      ParseNatString(n);
    }
  }
}

=== FILE: results.dfy ===
/** Outcome types standing in for Python's None and for raised exceptions. */
module Results {

  /** A value that may be absent (Python's `None`). */
  datatype Option<+T> = None | Some(value: T)

  /** The value of a computation, or the message of the exception it raised. */
  datatype Result<+T> = Ok(value: T) | Err(error: string)
}

=== FILE: seqs.dfy ===
/**
 * Small facts about sequences, stated once so that proofs about long prompts
 * and lists can cite them instead of re-deriving sequence equality in place.
 */
module Seqs {

  lemma PrefixStep<T>(s: seq<T>, i: nat)
    requires i < |s|
    ensures s[..i + 1] == s[..i] + [s[i]]
  {
  }

  lemma WholePrefix<T>(s: seq<T>)
    ensures s[..|s|] == s
  {
  }

  lemma AppendAssoc<T>(a: seq<T>, b: seq<T>, c: seq<T>)
    ensures (a + b) + c == a + (b + c)
  {
  }

  /** Dropping the last element of `a + [x]` gives back `a`. */
  lemma DropLast<T>(a: seq<T>, x: T)
    ensures (a + [x])[..|a|] == a
  {
  }

  /** A non-empty sequence is its front followed by its last element. */
  lemma LastSplit<T>(s: seq<T>)
    requires s != []
    ensures s == s[..|s| - 1] + [s[|s| - 1]]
  {
  }
}

=== FILE: summarizer.dfy ===
/**
 * `summarize_window` of summarizer.py: the transcript is chunked, each block is
 * summarised by one request (the map phase, in block order), and one more
 * request merges the labelled partial summaries into the digest (the reduce
 * phase). The whole pipeline runs first on the asynchronous client; if anything
 * in that attempt fails, it runs again from scratch on the blocking client,
 * whose failure reaches the caller.
 */
module Summarizer {
  import opened Results
  import opened PyStr
  import opened Chunker
  import opened Generation
  import opened Seqs

  /** `SYSTEM_PROMPT`, sent with every request. */
  const SystemPrompt: string :=
    "Siz — Telegram guruhining diqqatli kotibisiz. Muhokamalar bo'yicha qisqa xulosa chiqaring., "
    + "Mavzular bo'yicha tartibla, vazifalarni, dedlaynlarni, bahsli jihatlarni va qabul qilingan qarorlarni ajratib ko'rsat. "
    + "Yakunda (agar mavjud bo'lsa) Todo ro'yxatini va xavf/to'siqlar bo'limini qo'sh."

  /** The user prompt for block `i` (counting from 1) of `n`. */
  function MapPrompt(i: nat, n: nat, period: string, block: string): (r: string)
    ensures |r| > |block| && r[|r| - |block|..] == block
  {
    "Суммируй блок " + NatToString(i) + "/" + NatToString(n) + " " + period + ":\n" + block
  }

  /** Each partial summary under its block number, counting from 1. */
  function Labelled(summaries: seq<string>): (parts: seq<string>)
    ensures |parts| == |summaries|
    ensures forall i :: 0 <= i < |summaries| ==> parts[i] == "Блок " + NatToString(i + 1) + ": " + summaries[i]
  {
    seq(|summaries|, i requires 0 <= i < |summaries| => "Блок " + NatToString(i + 1) + ": " + summaries[i])
  }

  /** The user prompt of the reduce request. */
  function ReducePrompt(period: string, summaries: seq<string>): string {
    "Объедини кратко все блоки " + period + " в единый дайджест с заголовками:\n"
    + Join("\n\n", Labelled(summaries))
  }

  /** The map requests, one per block, in block order. */
  function MapRequests(system: string, blocks: seq<string>, period: string): (reqs: seq<Request>)
    ensures |reqs| == |blocks|
    ensures forall i :: 0 <= i < |blocks| ==> reqs[i] == Request(system, MapPrompt(i + 1, |blocks|, period, blocks[i]))
  {
    seq(|blocks|, i requires 0 <= i < |blocks| => Request(system, MapPrompt(i + 1, |blocks|, period, blocks[i])))
  }

  // ---------------------------------------------------------------- one attempt, as a specification

  /**
   * The outcomes a client will give to its next `count` requests, when it has
   * already sent `sent`.
   */
  function Outcomes(respond: nat -> Result<string>, sent: nat, count: nat): (rs: seq<Result<string>>)
    ensures |rs| == count
    ensures forall j :: 0 <= j < count ==> rs[j] == Answer(respond, sent + j)
  {
    seq(count, j requires 0 <= j < count => Answer(respond, sent + j))
  }

  lemma OutcomeAt(respond: nat -> Result<string>, sent: nat, count: nat, j: nat, n: nat)
    requires j < count && n == sent + j
    ensures Outcomes(respond, sent, count)[j] == Answer(respond, n)
  {
  }

  /** The position of the first failed outcome among the first `limit`, or `limit`. */
  function FirstFailure(rs: seq<Result<string>>, limit: nat): (k: nat)
    requires limit <= |rs|
    ensures k <= limit
    ensures forall j :: 0 <= j < k ==> rs[j].Ok?
    ensures k < limit ==> rs[k].Err?
  {
    if limit == 0 then 0
    else
      var k := FirstFailure(rs, limit - 1);
      if k < limit - 1 || rs[limit - 1].Err? then k else limit
  }

  /** The stripped replies to the first `n` requests, all of which succeeded. */
  function Summaries(rs: seq<Result<string>>, n: nat): (summaries: seq<string>)
    requires n <= |rs| && forall j :: 0 <= j < n ==> rs[j].Ok?
    ensures |summaries| == n
    ensures forall j :: 0 <= j < n ==> summaries[j] == Strip(rs[j].value)
  {
    seq(n, j requires 0 <= j < n => Strip(rs[j].value))
  }

  /**
   * The requests one attempt sends when the client's outcomes are `rs` (one per
   * possible request: the map requests, then the reduce request): requests stop
   * at the first failure.
   */
  function AttemptRequests(rs: seq<Result<string>>, system: string, blocks: seq<string>, period: string): (reqs: seq<Request>)
    requires |rs| == |blocks| + 1
    ensures 1 <= |reqs| <= |blocks| + 1
    ensures forall j :: 0 <= j < |reqs| && j < |blocks| ==>
              reqs[j] == Request(system, MapPrompt(j + 1, |blocks|, period, blocks[j]))
    ensures forall j :: 0 <= j < |reqs| - 1 ==> rs[j].Ok?
    ensures |reqs| <= |blocks| ==> rs[|reqs| - 1].Err?
    ensures |reqs| == |blocks| + 1 ==>
              reqs[|blocks|] == Request(system, ReducePrompt(period, Summaries(rs, |blocks|)))
  {
    var n := |blocks|;
    var k := FirstFailure(rs, n);
    if k == n then MapRequests(system, blocks, period) + [Request(system, ReducePrompt(period, Summaries(rs, n)))]
    else MapRequests(system, blocks, period)[..k + 1]
  }

  /**
   * What one attempt returns: the stripped reply to the reduce request when
   * every request succeeded, otherwise the first failure; never a partial digest.
   */
  function AttemptResult(rs: seq<Result<string>>, blocks: seq<string>, period: string): (r: Result<string>)
    requires |rs| == |blocks| + 1
    ensures r.Ok? <==> forall j :: 0 <= j < |rs| ==> rs[j].Ok?
    ensures r.Ok? ==> r.value == Strip(rs[|blocks|].value)
    ensures r.Err? ==> exists j :: 0 <= j < |rs| && rs[j] == Err(r.error) && forall i :: 0 <= i < j ==> rs[i].Ok?
  {
    var k := FirstFailure(rs, |rs|);
    if k == |rs| then Ok(Strip(rs[|blocks|].value)) else Err(rs[k].error)
  }

  lemma FirstFailureIs(rs: seq<Result<string>>, limit: nat, k: nat)
    requires k <= limit <= |rs|
    requires forall j :: 0 <= j < k ==> rs[j].Ok?
    requires k < limit ==> rs[k].Err?
    ensures FirstFailure(rs, limit) == k
  {
  }

  // ---------------------------------------------------------------- the pipeline

  /**
   * The map phase on client `gen` (the loop at lines 31-40, and again 55-64):
   * one request per block, in order, stopping at the first failure. `rs` are the
   * outcomes the client will give to its next requests.
   */
  method MapBlocks(gen: Generator, system: string, blocks: seq<string>, period: string, ghost rs: seq<Result<string>>)
    returns (r: Result<seq<string>>)
    requires |rs| == |blocks| + 1 && rs == Outcomes(gen.respond, |gen.requests|, |blocks| + 1)
    modifies gen
    ensures var k := FirstFailure(rs, |blocks|);
            && (r.Ok? <==> k == |blocks|)
            && (r.Ok? ==> r.value == Summaries(rs, |blocks|)
                          && gen.requests == old(gen.requests) + MapRequests(system, blocks, period)[..|blocks|])
            && (r.Err? ==> k < |blocks| && r.error == rs[k].error
                           && gen.requests == old(gen.requests) + MapRequests(system, blocks, period)[..k + 1])
  {
    ghost var before := gen.requests;
    ghost var maps := MapRequests(system, blocks, period);
    var summaries: seq<string> := [];
    for i := 0 to |blocks|
      invariant forall j :: 0 <= j < i ==> rs[j].Ok?
      invariant gen.requests == before + maps[..i]
      invariant summaries == Summaries(rs, i)
    {
      OutcomeAt(gen.respond, |before|, |blocks| + 1, i, |gen.requests|);
      var reply := gen.Generate(system, MapPrompt(i + 1, |blocks|, period, blocks[i]));
      PrefixStep(maps, i);
      AppendAssoc(before, maps[..i], [maps[i]]);
      if reply.Err? {
        FirstFailureIs(rs, |blocks|, i);
        return Err(reply.error);
      }
      SummariesStep(rs, i);
      summaries := summaries + [Strip(reply.value)];
    }
    FirstFailureIs(rs, |blocks|, |blocks|);
    r := Ok(summaries);
  }

  /**
   * One pass of map and reduce over `blocks` on client `gen`: the body of the
   * `try` (lines 29-51) and, identically, of the `except` (lines 53-74). A
   * failing request ends the attempt with that failure.
   */
  method Attempt(gen: Generator, system: string, blocks: seq<string>, period: string) returns (r: Result<string>)
    modifies gen
    ensures var rs := Outcomes(gen.respond, |old(gen.requests)|, |blocks| + 1);
            && gen.requests == old(gen.requests) + AttemptRequests(rs, system, blocks, period)
            && r == AttemptResult(rs, blocks, period)
  {
    ghost var before := gen.requests;
    ghost var rs := Outcomes(gen.respond, |before|, |blocks| + 1);
    var mapped := MapBlocks(gen, system, blocks, period, rs);
    if mapped.Err? {
      AttemptFailed(rs, system, blocks, period, before, gen.requests);
      return Err(mapped.error);
    }
    OutcomeAt(gen.respond, |before|, |blocks| + 1, |blocks|, |gen.requests|);
    r := ReduceSummaries(gen, system, period, mapped.value);
    CompleteLog(rs, system, blocks, period, before, gen.requests);
    CompleteResult(rs, blocks, period);
  }

  /**
   * The reduce phase on client `gen` (lines 42-51, and again 65-74): one request
   * carrying the labelled partial summaries; its stripped reply is the digest.
   */
  method ReduceSummaries(gen: Generator, system: string, period: string, summaries: seq<string>)
    returns (r: Result<string>)
    modifies gen
    ensures gen.requests == old(gen.requests) + [Request(system, ReducePrompt(period, summaries))]
    ensures var reply := Answer(gen.respond, |old(gen.requests)|);
            r == if reply.Ok? then Ok(Strip(reply.value)) else reply
  {
    var prompt := ReducePrompt(period, summaries);
    var reply := gen.Generate(system, prompt);
    if reply.Err? {
      return Err(reply.error);
    }
    r := Ok(Strip(reply.value));
  }

  /** An attempt whose map phase fails sends the map requests up to the failing one and returns its failure. */
  lemma AttemptFailed(rs: seq<Result<string>>, system: string, blocks: seq<string>, period: string,
                      before: seq<Request>, log: seq<Request>)
    requires |rs| == |blocks| + 1 && FirstFailure(rs, |blocks|) < |blocks|
    requires log == before + MapRequests(system, blocks, period)[..FirstFailure(rs, |blocks|) + 1]
    ensures log == before + AttemptRequests(rs, system, blocks, period)
    ensures AttemptResult(rs, blocks, period) == Err(rs[FirstFailure(rs, |blocks|)].error)
  {
    FirstFailureIs(rs, |rs|, FirstFailure(rs, |blocks|));
  }

  /** An attempt whose map phase succeeds sends every map request and then the reduce request. */
  lemma CompleteLog(rs: seq<Result<string>>, system: string, blocks: seq<string>, period: string,
                    before: seq<Request>, log: seq<Request>)
    requires |rs| == |blocks| + 1 && FirstFailure(rs, |blocks|) == |blocks|
    requires log == before + MapRequests(system, blocks, period)[..|blocks|]
                    + [Request(system, ReducePrompt(period, Summaries(rs, |blocks|)))]
    ensures log == before + AttemptRequests(rs, system, blocks, period)
  {
    var maps := MapRequests(system, blocks, period);
    WholePrefix(maps);
    AppendAssoc(before, maps, [Request(system, ReducePrompt(period, Summaries(rs, |blocks|)))]);
  }

  lemma SummariesStep(rs: seq<Result<string>>, i: nat)
    requires i < |rs| && forall j :: 0 <= j <= i ==> rs[j].Ok?
    ensures Summaries(rs, i + 1) == Summaries(rs, i) + [Strip(rs[i].value)]
  {
  }

  /** An attempt whose map phase succeeds returns what the reduce request returns. */
  lemma CompleteResult(rs: seq<Result<string>>, blocks: seq<string>, period: string)
    requires |rs| == |blocks| + 1 && FirstFailure(rs, |blocks|) == |blocks|
    ensures AttemptResult(rs, blocks, period)
            == if rs[|blocks|].Ok? then Ok(Strip(rs[|blocks|].value)) else rs[|blocks|]
  {
    assert FirstFailure(rs, |rs|) == if rs[|blocks|].Ok? then |rs| else |blocks|;
  }

  /** The outcome of a whole attempt by a client that has already sent `sent` requests. */
  function AttemptOn(respond: nat -> Result<string>, sent: nat, blocks: seq<string>, period: string): Result<string> {
    AttemptResult(Outcomes(respond, sent, |blocks| + 1), blocks, period)
  }

  /**
   * The body of `summarize_window` once the messages are chunked into `blocks`,
   * for requests carrying the system prompt `system`. `primary` is the
   * asynchronous client, `None` when constructing it raised; `fallback` is the
   * blocking client the caller passed in.
   */
  method SummarizeBlocks(primary: Option<Generator>, fallback: Generator, system: string, blocks: seq<string>, period: string)
    returns (r: Result<string>)
    requires primary.Some? ==> primary.value != fallback
    modifies fallback, if primary.Some? then {primary.value} else {}
    // the primary client, when there is one, runs one attempt over the blocks
    ensures primary.Some? ==>
              primary.value.requests == old(primary.value.requests)
                + AttemptRequests(Outcomes(primary.value.respond, |old(primary.value.requests)|, |blocks| + 1), system, blocks, period)
    // its digest is returned when that attempt succeeds, and the fallback client is not used
    ensures primary.Some? && AttemptOn(primary.value.respond, |old(primary.value.requests)|, blocks, period).Ok? ==>
              && r == AttemptOn(primary.value.respond, |old(primary.value.requests)|, blocks, period)
              && fallback.requests == old(fallback.requests)
    // otherwise the fallback client runs the whole attempt from the first block, and its outcome is returned
    ensures !(primary.Some? && AttemptOn(primary.value.respond, |old(primary.value.requests)|, blocks, period).Ok?) ==>
              var rs := Outcomes(fallback.respond, |old(fallback.requests)|, |blocks| + 1);
              && r == AttemptResult(rs, blocks, period)
              && fallback.requests == old(fallback.requests) + AttemptRequests(rs, system, blocks, period)
  {
    if primary.Some? {
      var result := Attempt(primary.value, system, blocks, period);
      if result.Ok? {
        return result;
      }
    }
    r := Attempt(fallback, system, blocks, period);
  }

  /**
   * `summarize_window(client, model, msgs, period_label)`: the messages are
   * chunked with the default budget (both branches chunk the same messages, so
   * once here), and every request carries `SYSTEM_PROMPT`.
   */
  method SummarizeWindow(primary: Option<Generator>, fallback: Generator, msgs: seq<Message>, period: string)
    returns (r: Result<string>)
    requires primary.Some? ==> primary.value != fallback
    modifies fallback, if primary.Some? then {primary.value} else {}
    ensures var blocks := Chunks(Lines(msgs), DefaultMaxChars);
            primary.Some? ==>
              primary.value.requests == old(primary.value.requests)
                + AttemptRequests(Outcomes(primary.value.respond, |old(primary.value.requests)|, |blocks| + 1), SystemPrompt, blocks, period)
    ensures var blocks := Chunks(Lines(msgs), DefaultMaxChars);
            primary.Some? && AttemptOn(primary.value.respond, |old(primary.value.requests)|, blocks, period).Ok? ==>
              && r == AttemptOn(primary.value.respond, |old(primary.value.requests)|, blocks, period)
              && fallback.requests == old(fallback.requests)
    ensures var blocks := Chunks(Lines(msgs), DefaultMaxChars);
            !(primary.Some? && AttemptOn(primary.value.respond, |old(primary.value.requests)|, blocks, period).Ok?) ==>
              var rs := Outcomes(fallback.respond, |old(fallback.requests)|, |blocks| + 1);
              && r == AttemptResult(rs, blocks, period)
              && fallback.requests == old(fallback.requests) + AttemptRequests(rs, SystemPrompt, blocks, period)
  {
    var blocks := ChunkMessages(msgs, DefaultMaxChars);
    r := SummarizeBlocks(primary, fallback, SystemPrompt, blocks, period);
  }

  // ---------------------------------------------------------------- properties

  /** The reduce prompt carries every partial summary under its block number. */
  lemma ReducePromptLabelsEach(period: string, summaries: seq<string>, i: nat)
    requires i < |summaries|
    ensures Contains(ReducePrompt(period, summaries), "Блок " + NatToString(i + 1) + ": " + summaries[i])
  {
    var parts := Labelled(summaries);
    JoinContains("\n\n", parts, i);
    ContainsAfter("Объедини кратко все блоки " + period + " в единый дайджест с заголовками:\n", Join("\n\n", parts), parts[i]);
  }

  /**
   * Two blocks, every request answered: the attempt sends "block 1/2", then
   * "block 2/2", then one reduce request that lists both stripped summaries as
   * "Блок 1" and "Блок 2".
   */
  lemma TwoBlockRequests(rs: seq<Result<string>>, system: string, b1: string, b2: string, period: string)
    requires |rs| == 3 && rs[0].Ok? && rs[1].Ok? && rs[2].Ok?
    ensures var reqs := AttemptRequests(rs, system, [b1, b2], period);
            && |reqs| == 3
            && reqs[0].user == "Суммируй блок 1/2 " + period + ":\n" + b1
            && reqs[1].user == "Суммируй блок 2/2 " + period + ":\n" + b2
            && reqs[2].user == "Объедини кратко все блоки " + period + " в единый дайджест с заголовками:\n"
                               + ("Блок 1: " + Strip(rs[0].value) + "\n\n" + "Блок 2: " + Strip(rs[1].value))
  {
    FirstFailureIs(rs, 2, 2);
    FirstOfTwoPrompt(period, b1);
    SecondOfTwoPrompt(period, b2);
    var ss := Summaries(rs, 2);
    assert ss == [Strip(rs[0].value), Strip(rs[1].value)];
    TwoSummaryReducePrompt(period, ss[0], ss[1]);
  }

  lemma FirstOfTwoPrompt(period: string, block: string)
    ensures MapPrompt(1, 2, period, block) == "Суммируй блок 1/2 " + period + ":\n" + block
  {
    assert NatToString(1) == "1" && NatToString(2) == "2";
    assert "Суммируй блок " + "1" + "/" + "2" + " " == "Суммируй блок 1/2 ";
  }

  lemma SecondOfTwoPrompt(period: string, block: string)
    ensures MapPrompt(2, 2, period, block) == "Суммируй блок 2/2 " + period + ":\n" + block
  {
    assert NatToString(2) == "2";
    assert "Суммируй блок " + "2" + "/" + "2" + " " == "Суммируй блок 2/2 ";
  }

  lemma TwoSummaryReducePrompt(period: string, s1: string, s2: string)
    ensures ReducePrompt(period, [s1, s2])
            == "Объедини кратко все блоки " + period + " в единый дайджест с заголовками:\n"
               + ("Блок 1: " + s1 + "\n\n" + "Блок 2: " + s2)
  {
    var parts := Labelled([s1, s2]);
    assert NatToString(1) == "1" && NatToString(2) == "2";
    assert "Блок " + "1" + ": " == "Блок 1: " && "Блок " + "2" + ": " == "Блок 2: ";
    assert parts[0] == "Блок 1: " + s1 && parts[1] == "Блок 2: " + s2;
    assert Join("\n\n", parts) == parts[0] + "\n\n" + parts[1];
    AppendAssoc("Блок 1: " + s1 + "\n\n", "Блок 2: ", s2);
  }

  /** With every request answered, the attempt returns the stripped reduce reply. */
  lemma AllAnsweredResult(rs: seq<Result<string>>, system: string, blocks: seq<string>, period: string)
    requires |rs| == |blocks| + 1
    requires forall j :: 0 <= j < |rs| ==> rs[j].Ok?
    ensures AttemptResult(rs, blocks, period) == Ok(Strip(rs[|blocks|].value))
    ensures |AttemptRequests(rs, system, blocks, period)| == |blocks| + 1
  {
    FirstFailureIs(rs, |blocks|, |blocks|);
  }

  /**
   * With no messages there are no blocks, yet the attempt still sends one
   * request: the reduce request over an empty list of summaries.
   */
  lemma EmptyWindowRequest(rs: seq<Result<string>>, system: string, period: string)
    requires |rs| == 1
    ensures Chunks(Lines([]), DefaultMaxChars) == []
    ensures AttemptRequests(rs, system, [], period)
            == [Request(system, "Объедини кратко все блоки " + period + " в единый дайджест с заголовками:\n")]
  {
    assert Lines([]) == [];
    ChunksEmpty(Lines([]), DefaultMaxChars);
    FirstFailureIs(rs, 0, 0);
    var header := "Объедини кратко все блоки " + period + " в единый дайджест с заголовками:\n";
    assert Summaries(rs, 0) == [] && Labelled([]) == [];
    assert ReducePrompt(period, []) == header + "" == header;
  }
}
